=== FILE: README.md ===
# raml-to-jaxrs code generators, modelled in Dafny

raml-to-jaxrs turns a RAML API description into Java source through two generators.

The service generator (`Generator`) writes one JAX-RS resource interface per
resource. The interface carries a `@Path` value and one annotated method per action
and request body variant. A method that needs one also gets a nested
`<MethodName>Response` class with static builder methods, one per declared status
code and response body variant. Each method's parameters come in a fixed order:

- template parameters (the applied resource type, then the selected traits);
- path, header, query and body parameters;
- the async-continuation parameter, when the action applies the configured async trait.

The client generator (`ClientGenerator`) writes one proxy class per resource in the
`<base>.builder` package instead. It has a `PATH` constant, the client and base-URL
fields, `createRequestTarget()`, and one method per action and request body variant whose
body issues the request. Both generators call every registered `GeneratorExtension` once per finished
interface, in registration order. Only the service generator also calls every extension
once per added method; the client generator has no per-method calls.

The model is split into these modules:

- `Sequences`: generic sequence facts used by the loop proofs.
- `JavaText`: the commons-lang helpers the generators call. These are `strip`,
  `defaultIfBlank`, `capitalize`, `contains`, `NumberUtils.toInt` and
  `toLowerCase(Locale.ROOT)`.
- `LinkedMaps`: `LinkedHashMap` as a sequence of entries. It covers `put`, `putAll`
  and `keySet().retainAll`, with key order and last-write-wins.
- `Model`: the RAML entities the generators read (resources, actions, responses,
  headers, templates). It also holds the declarations they emit and the uninterpreted
  collaborators. `Names` becomes `Naming`; `Types` and the generation context become
  `TypeContext`.
- `Templates`: `flattenTemplates` and `getTemplateParameterClasses`.
- `ResponseBuilders`: both overloads of `createResponseBuilderInResourceMethodReturnType`.
- `ServiceGenerator`: the rest of `Generator`. The class `Generator` keeps the log of
  extension calls. The class `ResourceInterface` is the interface being filled.
- `ResourceClients`: `ClientGenerator`, with the class being filled (`ResourceClient`).

The JCodeModel objects the Java code fills in place become Dafny classes whose
sequence fields the methods extend. The expressions and statements the generators
emit become datatypes.

## Model

| member | source | states |
|---|---|---|
| JavaText.Strip | raml-to-jaxrs/core/src/main/java/org/raml/jaxrs/codegen/core/Generator.java:74 | the stripped text is no longer than the input and neither starts nor ends with the stripped character |
| JavaText.StripUnpads | raml-to-jaxrs/core/src/main/java/org/raml/jaxrs/codegen/core/Generator.java:74 | every input is its stripped text with runs of the character added on both sides |
| JavaText.StripPadded | raml-to-jaxrs/core/src/main/java/org/raml/jaxrs/codegen/core/Generator.java:74 | stripping undoes any padding of a text that does not itself start or end with the character |
| JavaText.Contains | raml-to-jaxrs/core/src/main/java/org/raml/jaxrs/codegen/core/Generator.java:321 | true exactly when the pattern occurs at some position of the text |
| JavaText.Capitalize | raml-to-jaxrs/core/src/main/java/org/raml/jaxrs/codegen/core/Generator.java:244 | same length; only the first character changes, to its title case |
| JavaText.ToLowerRoot | raml-to-jaxrs/core/src/main/java/org/raml/jaxrs/codegen/core/ClientGenerator.java:93 | same length; every character is lower-cased in place |
| JavaText.ParseInt | raml-to-jaxrs/core/src/main/java/org/raml/jaxrs/codegen/core/Generator.java:264 | a parsed value is a 32-bit int; the empty text never parses |
| JavaText.ToInt | raml-to-jaxrs/core/src/main/java/org/raml/jaxrs/codegen/core/Generator.java:264 | the result is a 32-bit int; it is the parsed value when the text parses and 0 otherwise |
| JavaText.ToIntOfDecimal | raml-to-jaxrs/core/src/main/java/org/raml/jaxrs/codegen/core/Generator.java:264 | a status code written in decimal reads back as itself (round trip) |
| JavaText.ToIntOfNonNumeric | raml-to-jaxrs/core/src/main/java/org/raml/jaxrs/codegen/core/Generator.java:264 | a key with a non-digit character (other than a leading sign) reads as 0 |
| LinkedMaps.Put | raml-to-jaxrs/core/src/main/java/org/raml/jaxrs/codegen/core/Generator.java:177-179 | a new key is appended at the end and an existing key keeps its position; the key maps to the new value and every other key is unchanged |
| LinkedMaps.PutEach | raml-to-jaxrs/core/src/main/java/org/raml/jaxrs/codegen/core/Generator.java:201 | the `putAll` loop yields the entry-by-entry fold of `Put` |
| LinkedMaps.KeysPutAll | raml-to-jaxrs/core/src/main/java/org/raml/jaxrs/codegen/core/Generator.java:201 | after `putAll`, the keys are the old keys followed by the new ones, each kept at its first occurrence |
| LinkedMaps.GetPutAll | raml-to-jaxrs/core/src/main/java/org/raml/jaxrs/codegen/core/Generator.java:201 | after `putAll`, a key maps to its last value in the added entries if it occurs there, and to its old value otherwise |
| LinkedMaps.PutAllDistinct | raml-to-jaxrs/core/src/main/java/org/raml/jaxrs/codegen/core/Generator.java:201 | `putAll` never creates a duplicate key |
| LinkedMaps.RetainSelects | raml-to-jaxrs/core/src/main/java/org/raml/jaxrs/codegen/core/Generator.java:182-183 | after `retainAll`, a key is present exactly when it was present and is among the retained names |
| LinkedMaps.RetainKeepsOrder | raml-to-jaxrs/core/src/main/java/org/raml/jaxrs/codegen/core/Generator.java:182-183 | `retainAll` keeps the surviving entries in the map's original order |
| LinkedMaps.DedupAppendDedup | raml-to-jaxrs/core/src/main/java/org/raml/jaxrs/codegen/core/Generator.java:177-188 | removing duplicates from a prefix first does not change the key order of the whole |
| Templates.FlattenTemplates | raml-to-jaxrs/core/src/main/java/org/raml/jaxrs/codegen/core/Generator.java:197-204 | the loop yields the left-to-right `putAll` of the template maps |
| Templates.FlattenKeys | raml-to-jaxrs/core/src/main/java/org/raml/jaxrs/codegen/core/Generator.java:197-204 | the flattened keys are all declared names in declaration order, first occurrence kept, without duplicates |
| Templates.FlattenDefines | raml-to-jaxrs/core/src/main/java/org/raml/jaxrs/codegen/core/Generator.java:197-204 | a name is in the flattened map exactly when some map declares it |
| Templates.FlattenLastWins | raml-to-jaxrs/core/src/main/java/org/raml/jaxrs/codegen/core/Generator.java:197-204 | a name maps to the template of its last declaration (last write wins) |
| Templates.GetTemplateParameterClasses | raml-to-jaxrs/core/src/main/java/org/raml/jaxrs/codegen/core/Generator.java:160-192 | the method builds the template parameter map defined by `TemplateParameters` |
| Templates.ResourceTypeFirst | raml-to-jaxrs/core/src/main/java/org/raml/jaxrs/codegen/core/Generator.java:174-189 | a leading resource-type use exists exactly when the resource's type is registered, and it is that template; every later use is a trait |
| Templates.TraitsSelected | raml-to-jaxrs/core/src/main/java/org/raml/jaxrs/codegen/core/Generator.java:165-189 | a trait is used exactly when the resource or the action applies it and it is registered; unregistered names are skipped |
| Templates.TraitsInRegistryOrder | raml-to-jaxrs/core/src/main/java/org/raml/jaxrs/codegen/core/Generator.java:182-189 | trait uses follow the order of the flattened trait registry |
| Templates.RegistryOrderExample | raml-to-jaxrs/core/src/main/java/org/raml/jaxrs/codegen/core/Generator.java:166-189 | traits applied as `b` (resource) then `a` (action) but registered `a`, `b` come out as `a`, `b` |
| Templates.PutUsesKeys | raml-to-jaxrs/core/src/main/java/org/raml/jaxrs/codegen/core/Generator.java:177-188 | putting the uses gives keys equal to the old keys followed by the uses' variable names, first occurrence kept |
| Templates.TemplateParameterNames | raml-to-jaxrs/core/src/main/java/org/raml/jaxrs/codegen/core/Generator.java:160-192 | the parameter names are the variable names of the selected templates, resource type first, without duplicates |
| Templates.TemplateParameterValues | raml-to-jaxrs/core/src/main/java/org/raml/jaxrs/codegen/core/Generator.java:174-189 | each variable name holds the class of the last selected template bound under it (the later `put` wins); names no selected template is bound under are absent |
| Templates.GetPutUses | raml-to-jaxrs/core/src/main/java/org/raml/jaxrs/codegen/core/Generator.java:177-188 | after the puts of a series of uses, a name holds the last use's class, or its old value when no use is bound under it |
| ResponseBuilders.SelectMembers | raml-to-jaxrs/core/src/main/java/org/raml/jaxrs/codegen/core/Generator.java:316-334 | a header falls in a group exactly when it is declared and meets that group's condition (wildcard, chained, declared, looped) |
| ResponseBuilders.SelectKeepsOrder | raml-to-jaxrs/core/src/main/java/org/raml/jaxrs/codegen/core/Generator.java:316-334 | each group keeps the headers' declaration order |
| ResponseBuilders.FreeFormDescriptionEmpty | raml-to-jaxrs/core/src/main/java/org/raml/jaxrs/codegen/core/Generator.java:321-325 | the free-form description is empty exactly when every wildcard header has an empty description, so the map parameter appears only when some such description is not empty |
| ResponseBuilders.DeclareHeaders | raml-to-jaxrs/core/src/main/java/org/raml/jaxrs/codegen/core/Generator.java:314-334 | the first header loop yields the chained `header(..)` links, the header parameters and the free-form description of the whole header map |
| ResponseBuilders.AddRepeatLoops | raml-to-jaxrs/core/src/main/java/org/raml/jaxrs/codegen/core/Generator.java:366-376 | (corrected) one for-each per repeated header whose name has no wildcard symbol, in declaration order; the loop as written also visits wildcard headers (see Findings) |
| ResponseBuilders.CreateResponseBuilder | raml-to-jaxrs/core/src/main/java/org/raml/jaxrs/codegen/core/Generator.java:280-378 | (corrected) the method builds the builder declaration `BuilderMethodFor` describes, whose loops are the corrected second loop's; the properties are the lemmas below |
| ResponseBuilders.HeaderParameterIff | raml-to-jaxrs/core/src/main/java/org/raml/jaxrs/codegen/core/Generator.java:316-334 | a header parameter exists exactly for each declared header whose name has no wildcard symbol |
| ResponseBuilders.HeaderParametersInOrder | raml-to-jaxrs/core/src/main/java/org/raml/jaxrs/codegen/core/Generator.java:316-334 | header parameters follow the declaration order of their headers |
| ResponseBuilders.ChainLinkIff | raml-to-jaxrs/core/src/main/java/org/raml/jaxrs/codegen/core/Generator.java:321-330 | a `header(name, ref)` link exists exactly for each declared non-wildcard, non-repeated header |
| ResponseBuilders.RepeatLoopIff | raml-to-jaxrs/core/src/main/java/org/raml/jaxrs/codegen/core/Generator.java:366-376 | a for-each loop exists exactly for each declared repeated header whose name has no wildcard symbol (corrected second loop) |
| ResponseBuilders.EveryLoopHasParameter | raml-to-jaxrs/core/src/main/java/org/raml/jaxrs/codegen/core/Generator.java:327-333 | every for-each loop iterates over a declared parameter of the same header (corrected second loop) |
| ResponseBuilders.AsWrittenLoopDangles | raml-to-jaxrs/core/src/main/java/org/raml/jaxrs/codegen/core/Generator.java:366-376 | as written, a repeated wildcard header gets a loop although the header has no parameter |
| ResponseBuilders.LoopsAgreeWithoutRepeatedWildcards | raml-to-jaxrs/core/src/main/java/org/raml/jaxrs/codegen/core/Generator.java:366-376 | the loop as written and the corrected loop emit the same for-each loops for any headers without a repeated wildcard header |
| ResponseBuilders.BuilderBodyOrder | raml-to-jaxrs/core/src/main/java/org/raml/jaxrs/codegen/core/Generator.java:336-377 | the body declares the builder seeded with the status, then `headers(..)` if any, then `entity(..)` if a mime type, then the loops, then returns the wrapped response |
| ResponseBuilders.BuilderParamsOrder | raml-to-jaxrs/core/src/main/java/org/raml/jaxrs/codegen/core/Generator.java:333-363 | parameters are the header parameters, then the free-form map if any, then the entity last when a mime type is present |
| ResponseBuilders.ContentTypeLink | raml-to-jaxrs/core/src/main/java/org/raml/jaxrs/codegen/core/Generator.java:303-312 | the chain starts with `status(code)`, then a Content-Type header with the mime type when one is present, then one link per chained header |
| ResponseBuilders.CreateResponseBuilders | raml-to-jaxrs/core/src/main/java/org/raml/jaxrs/codegen/core/Generator.java:259-278 | the per-entry loop yields the builders of that response |
| ResponseBuilders.BuilderEnumeration | raml-to-jaxrs/core/src/main/java/org/raml/jaxrs/codegen/core/Generator.java:251-276 | the response class holds exactly one builder per (status, body variant), in response order and then body order |
| ResponseBuilders.NonNumericKeysCollide | raml-to-jaxrs/core/src/main/java/org/raml/jaxrs/codegen/core/Generator.java:264-286 | two bodiless responses whose status keys `Integer.parseInt` rejects (such as `2XX` or `default`) both get status 0 and the same builder name |
| ResponseBuilders.RejectedStatusKeys | raml-to-jaxrs/core/src/main/java/org/raml/jaxrs/codegen/core/Generator.java:264 | the status keys `2XX` and `default` do not parse as integers, so `toInt` reads them as 0 |
| ServiceGenerator.PathAnnotationValue | raml-to-jaxrs/core/src/main/java/org/raml/jaxrs/codegen/core/Generator.java:74-76 | the `@Path` value is "/" exactly when the slash-stripped URI is blank; otherwise it is the URI without its leading and trailing slashes |
| ServiceGenerator.PathOfSlashedUri | raml-to-jaxrs/core/src/main/java/org/raml/jaxrs/codegen/core/Generator.java:74-76 | any number of slashes around a non-blank path gives that path back |
| ServiceGenerator.PathOfRootUri | raml-to-jaxrs/core/src/main/java/org/raml/jaxrs/codegen/core/Generator.java:74-76 | a URI made only of slashes gives "/" |
| ServiceGenerator.ParameterGroups | raml-to-jaxrs/core/src/main/java/org/raml/jaxrs/codegen/core/Generator.java:127-138 | template, path, header, query and body parameters occupy consecutive blocks in that order, and the async parameter comes last |
| ServiceGenerator.HooksSeeFinishedMethods | raml-to-jaxrs/core/src/main/java/org/raml/jaxrs/codegen/core/Generator.java:140-143 | every method-added call goes to a registered extension and carries a method declaration the interface holds, with its own action |
| ServiceGenerator.Generator.CreateResourceMethodReturnType | raml-to-jaxrs/core/src/main/java/org/raml/jaxrs/codegen/core/Generator.java:239-257 | adds the `<MethodName>Response` class with the builders of all responses, or fails when the interface already has that class; the methods are unchanged |
| ServiceGenerator.Generator.GetResourceMethodReturnType | raml-to-jaxrs/core/src/main/java/org/raml/jaxrs/codegen/core/Generator.java:206-227 | an async method returns void and still gets its response class; a method without response types returns void without one when so configured; any other method returns its response class |
| ServiceGenerator.Generator.AddResourceMethod | raml-to-jaxrs/core/src/main/java/org/raml/jaxrs/codegen/core/Generator.java:93-144 | on success, appends the full method declaration (unique name, return type, throws, verb, consumes, produces, parameters) and then one call per extension; its return type is void exactly for an async method or a configured void method, and it adds the `<MethodName>Response` class exactly when the method is async or not void; it fails exactly when the method creates a response class and the interface already has a class of that name, and then reports that name and changes neither methods, classes nor hooks |
| ServiceGenerator.Generator.DeclareMethod | raml-to-jaxrs/core/src/main/java/org/raml/jaxrs/codegen/core/Generator.java:110-144 | once the return type is known, declares the method under the name `uniqueMethodName` gives against the methods already there, with its throws, verb, media types and parameters, appends it, and then calls every extension with it |
| ServiceGenerator.Generator.AddParameters | raml-to-jaxrs/core/src/main/java/org/raml/jaxrs/codegen/core/Generator.java:127-138 | the parameter steps yield the template, path, header, query, body and async parameters in that order |
| ServiceGenerator.AsyncParameterLast | raml-to-jaxrs/core/src/main/java/org/raml/jaxrs/codegen/core/Generator.java:228-237 | an async method gets exactly one extra, last parameter: the `@Suspended AsyncResponse` named after the async trait; any other method has none |
| ServiceGenerator.Generator.CallMethodHooks | raml-to-jaxrs/core/src/main/java/org/raml/jaxrs/codegen/core/Generator.java:141-143 | one method-added call per extension, in registration order |
| ServiceGenerator.Generator.CallInterfaceHooks | raml-to-jaxrs/core/src/main/java/org/raml/jaxrs/codegen/core/Generator.java:86-88 | one interface-created call per extension, in registration order |
| ServiceGenerator.Generator.CreateResourceInterface | raml-to-jaxrs/core/src/main/java/org/raml/jaxrs/codegen/core/Generator.java:68-89 | the interface is named after the resource and carries the `@Path` value; its methods are the series of declarations for the requests and its response classes those the requests create; the extension calls are the method-added calls and then the interface-created calls; it fails exactly when some request clashes, reporting the first such request's class name after the extension calls of the requests before it |
| ServiceGenerator.Generator.AddResourceMethods | raml-to-jaxrs/core/src/main/java/org/raml/jaxrs/codegen/core/Generator.java:83 | appends the series of declarations `addResourceMethod` makes for the requests in turn (see `MethodDeclsAt`), adds the response classes the requests create (see `ResponseClassesOf`), logs their extension calls in the same order; it fails exactly when some request clashes, and then reports the first such request's class name and leaves the methods, classes and extension calls of the requests before it |
| ServiceGenerator.ClashIff | raml-to-jaxrs/core/src/main/java/org/raml/jaxrs/codegen/core/Generator.java:244 | on a new interface, a request clashes exactly when it creates a response class and an earlier request of the same resource created one of the same name |
| ServiceGenerator.MethodDeclsAt | raml-to-jaxrs/core/src/main/java/org/raml/jaxrs/codegen/core/Generator.java:100-113 | the k-th declaration of a series is the one made for the k-th request, named uniquely against the methods already declared and the k before it, with the request's own return type |
| ServiceGenerator.ResponseClassesOf | raml-to-jaxrs/core/src/main/java/org/raml/jaxrs/codegen/core/Generator.java:206-257 | a series adds exactly the response classes of the requests that create one (async, or not returning void), each named after its requested method name |
| ResourceClients.ClientPathAgreesWithService | raml-to-jaxrs/core/src/main/java/org/raml/jaxrs/codegen/core/ClientGenerator.java:60-62 | the client's `PATH` value never starts or ends with a slash and is the relative URI between its slash padding; it equals the service `@Path` value whenever that is not the "/" default, and is blank when it is |
| ResourceClients.RootClientPathIsEmpty | raml-to-jaxrs/core/src/main/java/org/raml/jaxrs/codegen/core/ClientGenerator.java:60-62 | for a URI of slashes only, the client `PATH` is empty while the service `@Path` is "/" |
| ResourceClients.InvocationArguments | raml-to-jaxrs/core/src/main/java/org/raml/jaxrs/codegen/core/ClientGenerator.java:103-135 | the call arguments are the entity (when there is a request body) followed by the return type literal (when there is a response type) |
| ResourceClients.RequestStatementIsInvocation | raml-to-jaxrs/core/src/main/java/org/raml/jaxrs/codegen/core/ClientGenerator.java:96-137 | each of the four statement texts is one call of the verb on `createRequestTarget().request()` with the joined arguments, prefixed by `return ` when a response type exists |
| ResourceClients.RequestStatementReturns | raml-to-jaxrs/core/src/main/java/org/raml/jaxrs/codegen/core/ClientGenerator.java:96-137 | the statement starts with `return ` exactly when the method has a response type, and then calls the verb on the request target |
| ResourceClients.VerbSpelling | raml-to-jaxrs/core/src/main/java/org/raml/jaxrs/codegen/core/ClientGenerator.java:93 | the invoked method is the lower-case HTTP verb (`get`, `post`, ...) |
| ResourceClients.TypeLiteralShape | raml-to-jaxrs/core/src/main/java/org/raml/jaxrs/codegen/core/ClientGenerator.java:116-126 | a parameterized return type gives an anonymous `GenericType<..>(){}`; any other gives `<Name>.class`; the two forms never coincide |
| ResourceClients.ClientMethodShape | raml-to-jaxrs/core/src/main/java/org/raml/jaxrs/codegen/core/ClientGenerator.java:85-138 | void without response types, otherwise the entity class of the first one; body parameters only with a request body; the name carries the body mime type only when asked; the statement as above |
| ResourceClients.ClientMethods | raml-to-jaxrs/core/src/main/java/org/raml/jaxrs/codegen/core/ClientGenerator.java:85-138 | one client method per request, in order |
| ResourceClients.ClientGenerator.CreateResourceInterface | raml-to-jaxrs/core/src/main/java/org/raml/jaxrs/codegen/core/ClientGenerator.java:50-82 | fails exactly when the builder package already has a class of that name, changing nothing; otherwise a fresh class with the three fields, `createRequestTarget()` followed by the request methods, and one interface-created call per extension |
| ResourceClients.ClientGenerator.DeclareMembers | raml-to-jaxrs/core/src/main/java/org/raml/jaxrs/codegen/core/ClientGenerator.java:60-74 | adds the `PATH` constant, the client and base-URL fields, and `createRequestTarget()` |
| ResourceClients.ClientGenerator.AddResourceMethods | raml-to-jaxrs/core/src/main/java/org/raml/jaxrs/codegen/core/ClientGenerator.java:76 | appends the client methods of all requests, in order, leaving the fields alone |
| ResourceClients.ClientGenerator.CallInterfaceHooks | raml-to-jaxrs/core/src/main/java/org/raml/jaxrs/codegen/core/ClientGenerator.java:79-81 | one interface-created call per extension, in registration order |
| ResourceClients.ClientGenerator.AddResourceMethod | raml-to-jaxrs/core/src/main/java/org/raml/jaxrs/codegen/core/ClientGenerator.java:85-138 | appends exactly one method and no extension is called |

## Left out

- Javadoc and comments added to the generated code (descriptions, examples, `@param` text) are not modelled. The only exception is the free-form header description, because it decides whether the map parameter exists.
- Annotations are recorded as plain data and not as JCodeModel annotation objects. This covers `@Path`, the HTTP-method annotation, `@Consumes`/`@Produces`, parameter annotations and `@Suspended`.
- `Names`, `Types` and the generation context are not part of this model. They are uninterpreted functions of the model's `Naming` and `TypeContext` values, so nothing is proved about identifier normalisation, mime-type naming or unique method names. This covers `createTemplateParameterClass`, `getResponseEntityClass`, `buildParameterType`, `context.createResourceMethod` and `context.createResourceInterface`; the last is taken to succeed always and to keep the name `Names.buildResourceInterfaceName` gives.
- The `AbstractGenerator` traversal (`addResourceMethods`, body variants, unique response mime types) is not part of this model; it becomes the `MethodRequest` list.
- The parameter helpers `addPathParameters`, `addHeaderParameters`, `addQueryParameters` and `addBodyParameters` are not part of this model; they become the `TypeContext` functions `pathParameters`, `headerParameters`, `queryParameters` and `bodyParameters`.
- `addConsumesAnnotation` and `addProducesAnnotation` (lines 122-123 of `Generator.java`) are not modelled as annotations: the declaration's `consumes` and `produces` fields record the request body mime type and the unique response mime types exactly as given.
- `addParamAnnotation` (line 121 of `Generator.java`) is not modelled: the method-level `@Path` it may attach has no counterpart in `MethodDecl`, and the interface path it receives is not passed to `AddResourceMethod`.
- `getAllParameters` (lines 146-158 of `Generator.java`) is not called by any of the modelled operations and is not modelled.
- `context.setCurrentResourceInterface` is not modelled; it only records state for the unseen helpers.
- The response class's private constructor taking the `delegate` response is not modelled; it is the same for every class.
- String literals are not escaped as `JExpr.lit` would escape them.
- `JavaText.Capitalize` and `JavaText.ToLowerRoot`: only ASCII letters change case, and `ParseInt` only knows ASCII digits. Java's full Unicode case and digit tables are not modelled.
- A class name is a duplicate only when it is spelled identically. JCodeModel's case-insensitive collision on some file systems is not modelled.
- Extensions are recorded as an ordered log of calls. What an extension does to the model, and an extension that throws, are not modelled.
- ResponseBuilders.AddRepeatLoops: models the corrected second header loop, which skips headers whose name contains the wildcard symbol; Generator.java lines 366-376 as written also emit a for-each for a repeated wildcard header. The as-written loop is `ResponseBuilders.RepeatLoopsAsWritten` (see Findings).
- ResponseBuilders.CreateResponseBuilder: its builder, and so every contract built on it (`CreateResponseBuilders`, `BuilderEnumeration`, `ServiceGenerator.Generator.CreateResourceMethodReturnType`, `AddResourceMethod`, `AddResourceMethods` and `CreateResourceInterface`), describes the corrected second loop; for a response without repeated wildcard headers the two loops agree (`ResponseBuilders.LoopsAgreeWithoutRepeatedWildcards`).
- ServiceGenerator.Generator.CreateResourceInterface: on failure the partly filled interface, which Java leaves in the code model, is not returned, so its contract states only the error and the extension calls made; the methods and classes it holds at that point are those `AddResourceMethods` states for the requests before the clash.
- The model follows the code in these places, which a reader might not expect (apart from the corrected loop above):
  - Traits come in the order of the flattened trait registry, not in the order the resource and action apply them (`Templates.TraitsInRegistryOrder`, `Templates.RegistryOrderExample`).
  - The `headers(..)` call for the free-form map comes before `entity(..)` and before the repeated-header loops (`ResponseBuilders.BuilderBodyOrder`).
  - The builder's status is the parsed integer, 0 for a non-numeric key, not the key text.
  - Parameter names are not checked for collisions by these generators.
  - The client's `PATH` has no "/" default.

## Findings

| source | as written | input that shows it | evidently intended | confidence | as-written member | corrected member |
|---|---|---|---|---|---|---|
| raml-to-jaxrs/core/src/main/java/org/raml/jaxrs/codegen/core/Generator.java:366-376 | the second header loop emits a for-each for every repeated header, including headers whose name contains the wildcard symbol, which the first loop skipped without declaring a parameter | a response header named with the wildcard symbol (e.g. `X-{?}`) declared with `repeat: true` | skip wildcard headers in the second loop too, so every loop iterates over a declared parameter | not executed | ResponseBuilders.AsWrittenLoopDangles | ResponseBuilders.EveryLoopHasParameter |

=== FILE: client_generator.dfy ===
/**
 * The client generator (`ClientGenerator`): instead of a service interface, one client
 * class per resource in the `<base package>.builder` package. It holds the resource
 * path as a `PATH` constant, a JAX-RS client and base URL, a `createRequestTarget()`
 * helper, and one method per (action, request body variant) whose single statement
 * sends the request through the JAX-RS client API.
 *
 * As for the service generator, the traversal `AbstractGenerator.addResourceMethods`
 * is not part of this model: its `addResourceMethod` calls become a list of
 * `MethodRequest`s.
 */
module ResourceClients {
  import opened JavaText
  import opened Model
  import ServiceGenerator
  import opened Sequences

  // ---------------------------------------------------------------------------
  // The emitted client class members.

  datatype Modifier = Public | Protected | Private | Static | Final

  /** A field declaration; `init` is the value of its initialising string literal. */
  datatype FieldDecl = FieldDecl(modifiers: seq<Modifier>, ftype: JType, name: string, init: Option<string>)

  /** A method of the client class with its one body statement. */
  datatype ClientMethod = ClientMethod(modifiers: seq<Modifier>, returnType: JType, name: string,
                                       params: seq<Param>, statement: string)

  /** The package every client class is generated into. */
  function ClientPackage(config: Configuration): string {
    config.basePackageName + ".builder"
  }

  /** The fields `createResourceInterface` declares, in declaration order: the path
      constant, then the JAX-RS client and the base URL it is bound to. */
  function ClientFields(path: string): seq<FieldDecl> {
    [FieldDecl([Public, Static, Final], ClassType("java.lang.String", false), "PATH", Some(path)),
     FieldDecl([Private], ClassType("javax.ws.rs.client.Client", false), "_jaxRsClient", None),
     FieldDecl([Private], ClassType("java.net.URI", false), "_baseUrl", None)]
  }

  /** `createRequestTarget()`: the web target of the resource below the base URL. */
  const CreateRequestTarget: ClientMethod :=
    ClientMethod([Protected], ClassType("javax.ws.rs.client.WebTarget", false), "createRequestTarget", [],
                 "return _jaxRsClient.target(_baseUrl).path(PATH);")

  /** The value of the client's `PATH` constant never starts or ends with a slash: it
      is the relative URI between its leading and trailing slashes. Wherever the
      service interface's `@Path` value is not the "/" default, the two agree; where it
      is, the client's `PATH` is blank. */
  lemma ClientPathAgreesWithService(relativeUri: string)
    ensures var path := ClientFields(Strip(relativeUri, '/'))[0].init.value;
      var v := ServiceGenerator.PathAnnotationValue(relativeUri);
      && (path == [] || (path[0] != '/' && path[|path| - 1] != '/'))
      && (exists i: nat, j: nat :: relativeUri == Pad('/', i) + path + Pad('/', j))
      && (v != "/" ==> path == v)
      && (v == "/" ==> IsBlank(path))
  {
    var v := ServiceGenerator.PathAnnotationValue(relativeUri);
    StripUnpads(relativeUri, '/');
    if v != "/" {
      var i: nat, j: nat :| relativeUri == Pad('/', i) + v + Pad('/', j);
      StripPadded(v, '/', i, j);
    }
  }

  /** For the root resource (a URI of slashes only) the two generators part ways: the
      client's `PATH` is empty where the service interface is annotated "/". */
  lemma RootClientPathIsEmpty(n: nat)
    ensures Strip(Pad('/', n), '/') == []
    ensures ServiceGenerator.PathAnnotationValue(Pad('/', n)) == "/"
  {
    StripPadded([], '/', n, 0);
    assert Pad('/', n) + [] + Pad('/', 0) == Pad('/', n);
  }

  // ---------------------------------------------------------------------------
  // The choices of `addResourceMethod`.

  /** The return type of a client method: void without response mime types, otherwise
      the entity class of the first one. */
  function ClientReturnType(ctx: TypeContext, responseMimes: seq<MimeType>): JType {
    if |responseMimes| == 0 then VoidType else ctx.responseEntityClass(responseMimes[0])
  }

  const GenericTypeOpen: string := "new javax.ws.rs.core.GenericType<"

  /** The class literal passed to the invoker for the response entity: `<name>.class`,
      or an anonymous `GenericType` subclass for a parameterised class. */
  function TypeLiteral(t: JType): string {
    if t.ClassType? && t.parameterized then GenericTypeOpen + t.Name() + ">(){}"
    else t.Name() + ".class"
  }

  /** The request verb: the action type's name lower-cased with the root locale. */
  function Verb(verb: ActionType): string {
    ToLowerRoot(verb.Name())
  }

  /** The request entity argument for a request body of type `mime`. */
  function EntityArgument(mime: MimeType): string {
    EntityOpen + mime.mediaType + "\")"
  }

  const EntityOpen: string := "javax.ws.rs.client.Entity.entity(entity, \""
  const RequestPrefix: string := "createRequestTarget().request()."

  /** The single statement of a client method, in the four shapes the generator
      writes: with or without a request body, for a void or a non-void method
      (`returnLiteral` is the type literal of a non-void method). */
  function RequestStatement(verb: string, requestMime: Option<MimeType>, returnLiteral: Option<string>): string {
    match (returnLiteral, requestMime)
    case (None, Some(mime)) =>
      RequestPrefix + verb + "(" + EntityOpen + mime.mediaType + "\")" + ");"
    case (None, None) =>
      RequestPrefix + verb + "(" + ");"
    case (Some(literal), Some(mime)) =>
      "return " + RequestPrefix + verb + "(" + EntityOpen + mime.mediaType + "\")" + ", " + literal + ");"
    case (Some(literal), None) =>
      "return " + RequestPrefix + verb + "(" + literal + ");"
  }

  /** Call arguments separated by ", ". */
  function JoinArguments(args: seq<string>): string {
    if |args| == 0 then ""
    else if |args| == 1 then args[0]
    else JoinArguments(args[..|args| - 1]) + ", " + args[|args| - 1]
  }

  /** The invoker arguments: the request entity when there is a request body, then the
      response type literal when the method returns something. */
  function InvocationArguments(requestMime: Option<MimeType>, returnLiteral: Option<string>): (args: seq<string>)
    ensures |args| == (if requestMime.Some? then 1 else 0) + (if returnLiteral.Some? then 1 else 0)
    ensures requestMime.Some? ==> args[0] == EntityArgument(requestMime.value)
    ensures returnLiteral.Some? ==> args[|args| - 1] == returnLiteral.value
  {
    (if requestMime.Some? then [EntityArgument(requestMime.value)] else [])
      + (if returnLiteral.Some? then [returnLiteral.value] else [])
  }

  /** The statement read as a whole: an optional `return `, then a call of the verb's
      invoker method on `createRequestTarget().request()` with the arguments above. */
  lemma RequestStatementIsInvocation(verb: string, requestMime: Option<MimeType>,
                                     returnLiteral: Option<string>)
    ensures RequestStatement(verb, requestMime, returnLiteral) ==
      (if returnLiteral.Some? then "return " else "") + RequestPrefix + verb
        + "(" + JoinArguments(InvocationArguments(requestMime, returnLiteral)) + ");"
  {
    match (returnLiteral, requestMime)
    case (None, Some(mime)) => EntityCallIsInvocation(verb, mime);
    case (None, None) => BareCallIsInvocation(verb);
    case (Some(literal), Some(mime)) => EntityReturnIsInvocation(verb, mime, literal);
    case (Some(literal), None) => ReturnIsInvocation(verb, literal);
  }

  lemma EntityCallIsInvocation(verb: string, mime: MimeType)
    ensures RequestStatement(verb, Some(mime), None) ==
      "" + RequestPrefix + verb + "(" + JoinArguments(InvocationArguments(Some(mime), None)) + ");"
  {
    assert InvocationArguments(Some(mime), None) == [EntityArgument(mime)];
    NilAppend(RequestPrefix);
    Regroup3(RequestPrefix + verb + "(", EntityOpen, mime.mediaType, "\")", ");");
  }

  lemma BareCallIsInvocation(verb: string)
    ensures RequestStatement(verb, None, None) ==
      "" + RequestPrefix + verb + "(" + JoinArguments(InvocationArguments(None, None)) + ");"
  {
    assert InvocationArguments(None, None) == [];
    NilAppend(RequestPrefix);
    AppendNil(RequestPrefix + verb + "(");
  }

  lemma EntityReturnIsInvocation(verb: string, mime: MimeType, literal: string)
    ensures RequestStatement(verb, Some(mime), Some(literal)) ==
      "return " + RequestPrefix + verb + "(" + JoinArguments(InvocationArguments(Some(mime), Some(literal))) + ");"
  {
    var args := InvocationArguments(Some(mime), Some(literal));
    assert args == [EntityArgument(mime), literal];
    assert args[..1] == [EntityArgument(mime)];
    Regroup5("return " + RequestPrefix + verb + "(", EntityOpen, mime.mediaType, "\")", ", ", literal, ");");
  }

  lemma ReturnIsInvocation(verb: string, literal: string)
    ensures RequestStatement(verb, None, Some(literal)) ==
      "return " + RequestPrefix + verb + "(" + JoinArguments(InvocationArguments(None, Some(literal))) + ");"
  {
    assert InvocationArguments(None, Some(literal)) == [literal];
  }

  /** The middle three parts of a concatenation may be joined first. */
  lemma Regroup3(x: string, a: string, b: string, c: string, y: string)
    ensures x + a + b + c + y == x + (a + b + c) + y
  {
  }

  /** The middle five parts of a concatenation may be joined first. */
  lemma Regroup5(x: string, a: string, b: string, c: string, d: string, e: string, y: string)
    ensures x + a + b + c + d + e + y == x + (a + b + c + d + e) + y
  {
  }

  /** A statement returns exactly when the method has a return type literal, and the
      call on the request always comes right after the optional `return `. */
  lemma RequestStatementReturns(verb: string, requestMime: Option<MimeType>, returnLiteral: Option<string>)
    ensures var s := RequestStatement(verb, requestMime, returnLiteral);
      var start := if returnLiteral.Some? then |"return "| else 0;
      && (returnLiteral.Some? <==> |s| >= 7 && s[..7] == "return ")
      && |s| >= start + |RequestPrefix| + |verb| + 1
      && s[start..start + |RequestPrefix|] == RequestPrefix
      && s[start + |RequestPrefix|..start + |RequestPrefix| + |verb|] == verb
      && s[start + |RequestPrefix| + |verb|] == '('
  {
    RequestStatementIsInvocation(verb, requestMime, returnLiteral);
    var ret := if returnLiteral.Some? then "return " else "";
    CallLayout(ret, verb, JoinArguments(InvocationArguments(requestMime, returnLiteral)));
  }

  /** Where the parts of a call statement sit in its text. */
  lemma CallLayout(ret: string, verb: string, args: string)
    ensures var s := ret + RequestPrefix + verb + "(" + args + ");";
      var n := |ret| + |RequestPrefix|;
      && |s| >= n + |verb| + 1
      && s[..|ret|] == ret
      && s[|ret|] == 'c'
      && s[|ret|..n] == RequestPrefix
      && s[n..n + |verb|] == verb
      && s[n + |verb|] == '('
  {
    var s := ret + RequestPrefix + verb + "(" + args + ");";
    var n := |ret| + |RequestPrefix|;
    assert s == ret + (RequestPrefix + (verb + ("(" + (args + ");"))));
    assert s[|ret|] == RequestPrefix[0];
  }

  /** The verbs of the action types are the JAX-RS invoker method names. */
  lemma VerbSpelling(verb: ActionType)
    ensures Verb(verb) == match verb
      case GET => "get"
      case POST => "post"
      case PUT => "put"
      case DELETE => "delete"
      case HEAD => "head"
      case PATCH => "patch"
      case OPTIONS => "options"
      case TRACE => "trace"
      case CONNECT => "connect"
  {
    var n := verb.Name();
    assert forall k :: 0 <= k < |n| ==> 'A' <= n[k] <= 'Z';
  }

  /** A `.class` literal names the type followed by `.class`; a `GenericType` literal
      names it between angle brackets; and the literal ends in `.class` exactly when
      the type is not a parameterised class. */
  lemma TypeLiteralShape(t: JType)
    ensures var lit := TypeLiteral(t);
      var generic := t.ClassType? && t.parameterized;
      var n := |t.Name()|;
      && (generic <==> !(|lit| >= 6 && lit[|lit| - 6..] == ".class"))
      && (!generic ==> lit[..n] == t.Name() && |lit| == n + 6)
      && (generic ==> lit[|GenericTypeOpen|..|GenericTypeOpen| + n] == t.Name()
                      && lit[|GenericTypeOpen| + n..] == ">(){}")
  {
    var lit := TypeLiteral(t);
    if t.ClassType? && t.parameterized {
      assert lit[|lit| - 1] == '}';
    }
  }

  /** The method `addResourceMethod` adds for a request. */
  function ClientMethodFor(naming: Naming, ctx: TypeContext, request: MethodRequest): ClientMethod {
    var action := request.action;
    var returnType := ClientReturnType(ctx, request.uniqueResponseMimeTypes);
    var returnLiteral := if |request.uniqueResponseMimeTypes| == 0 then None else Some(TypeLiteral(returnType));
    ClientMethod([Public], returnType,
                 naming.resourceMethodName(action, if request.addBodyMimeTypeInMethodName then request.bodyMime else None),
                 if request.bodyMime.Some? then ctx.bodyParameters(request.bodyMime) else [],
                 RequestStatement(Verb(action.verb), request.bodyMime, returnLiteral))
  }

  /** What a client method is made of: void without response types and the first
      response type's entity class otherwise; the body parameters only with a request
      body; a `return` statement only when non-void, invoking the lower-cased verb with
      the entity argument first and the type literal last; and a name that takes the
      request mime type into account only when asked to. */
  lemma ClientMethodShape(naming: Naming, ctx: TypeContext, request: MethodRequest)
    ensures var m := ClientMethodFor(naming, ctx, request);
      var mimes := request.uniqueResponseMimeTypes;
      var literal := if |mimes| == 0 then None else Some(TypeLiteral(m.returnType));
      && (|mimes| == 0 ==> m.returnType == VoidType)
      && (|mimes| > 0 ==> m.returnType == ctx.responseEntityClass(mimes[0]))
      && (request.bodyMime.None? ==> m.params == [])
      && (request.bodyMime.Some? ==> m.params == ctx.bodyParameters(request.bodyMime))
      && (!request.addBodyMimeTypeInMethodName ==> m.name == naming.resourceMethodName(request.action, None))
      && (request.addBodyMimeTypeInMethodName ==> m.name == naming.resourceMethodName(request.action, request.bodyMime))
      && m.statement == (if |mimes| > 0 then "return " else "") + RequestPrefix + Verb(request.action.verb)
           + "(" + JoinArguments(InvocationArguments(request.bodyMime, literal)) + ");"
  {
    var m := ClientMethodFor(naming, ctx, request);
    var literal := if |request.uniqueResponseMimeTypes| == 0 then None else Some(TypeLiteral(m.returnType));
    RequestStatementIsInvocation(Verb(request.action.verb), request.bodyMime, literal);
  }

  /** The resource methods of a series of requests, in request order. */
  function ClientMethods(naming: Naming, ctx: TypeContext, requests: seq<MethodRequest>): (ms: seq<ClientMethod>)
    ensures |ms| == |requests|
    ensures forall k :: 0 <= k < |ms| ==> ms[k] == ClientMethodFor(naming, ctx, requests[k])
  {
    Map((request: MethodRequest) => ClientMethodFor(naming, ctx, request), requests)
  }

  lemma ClientMethodsStep(naming: Naming, ctx: TypeContext, requests: seq<MethodRequest>, i: nat)
    requires i < |requests|
    ensures ClientMethods(naming, ctx, requests[..i + 1]) ==
      ClientMethods(naming, ctx, requests[..i]) + [ClientMethodFor(naming, ctx, requests[i])]
  {
    MapStep((request: MethodRequest) => ClientMethodFor(naming, ctx, request), requests, i);
  }

  // ---------------------------------------------------------------------------
  // The client class and the generator.

  /** The client class being filled. */
  class ResourceClient {
    const packageName: string
    const name: string
    var fields: seq<FieldDecl>
    var methods: seq<ClientMethod>

    constructor (packageName: string, name: string)
      ensures this.packageName == packageName && this.name == name
      ensures fields == [] && methods == []
    {
      this.packageName := packageName;
      this.name := name;
      fields := [];
      methods := [];
    }
  }

  class ClientGenerator {
    const config: Configuration
    const naming: Naming
    const ctx: TypeContext
    /** The registered `GeneratorExtension`s, by name, in registration order. */
    const extensions: seq<string>
    /** The (package, name) of every class defined in the code model so far. */
    var classes: seq<(string, string)>
    /** Every extension call so far, in call order. */
    var hookLog: seq<HookEvent>

    constructor (config: Configuration, naming: Naming, ctx: TypeContext, extensions: seq<string>)
      ensures this.config == config && this.naming == naming && this.ctx == ctx
      ensures this.extensions == extensions
      ensures classes == [] && hookLog == []
    {
      this.config := config;
      this.naming := naming;
      this.ctx := ctx;
      this.extensions := extensions;
      classes := [];
      hookLog := [];
    }

    /** `createResourceInterface`: the client class named after the resource in the
        builder package, with its fields and `createRequestTarget()`, one method per
        request, and then one call of every extension. Defining a class whose name the
        package already holds fails and leaves everything as it was. */
    method CreateResourceInterface(resource: Resource, requests: seq<MethodRequest>)
      returns (r: Result<ResourceClient>)
      modifies this
      ensures var key := (ClientPackage(config), naming.resourceInterfaceName(resource));
        r.Failure? <==> key in old(classes)
      ensures r.Failure? ==>
        && r.error == ClassAlreadyExists(naming.resourceInterfaceName(resource))
        && classes == old(classes) && hookLog == old(hookLog)
      ensures r.Success? ==>
        && fresh(r.value)
        && r.value.packageName == ClientPackage(config)
        && r.value.name == naming.resourceInterfaceName(resource)
        && r.value.fields == ClientFields(Strip(resource.relativeUri, '/'))
        && r.value.methods == [CreateRequestTarget] + ClientMethods(naming, ctx, requests)
        && classes == old(classes) + [(ClientPackage(config), r.value.name)]
        && hookLog == old(hookLog) + ServiceGenerator.InterfaceHooks(extensions, r.value.name, resource)
    {
      var resourceInterfaceName := naming.resourceInterfaceName(resource);
      var pkg := config.basePackageName + ".builder";
      if (pkg, resourceInterfaceName) in classes {
        return Failure(ClassAlreadyExists(resourceInterfaceName));
      }
      var client := new ResourceClient(pkg, resourceInterfaceName);
      classes := classes + [(pkg, resourceInterfaceName)];

      var path := Strip(resource.relativeUri, '/');
      DeclareMembers(client, path);
      assert client.fields == ClientFields(path) && client.methods == [CreateRequestTarget];
      AddResourceMethods(client, requests);
      CallInterfaceHooks(resourceInterfaceName, resource);
      r := Success(client);
    }

    /** The members every client class gets before its resource methods: the `PATH`
        constant, the JAX-RS client and base URL fields, and `createRequestTarget()`. */
    static method DeclareMembers(client: ResourceClient, path: string)
      modifies client
      ensures client.fields == old(client.fields) + ClientFields(path)
      ensures client.methods == old(client.methods) + [CreateRequestTarget]
    {
      ghost var fields0 := client.fields;
      client.fields := client.fields
        + [FieldDecl([Public, Static, Final], ClassType("java.lang.String", false), "PATH", Some(path))];
      client.fields := client.fields + [FieldDecl([Private], ClassType("javax.ws.rs.client.Client", false), "_jaxRsClient", None)];
      client.fields := client.fields + [FieldDecl([Private], ClassType("java.net.URI", false), "_baseUrl", None)];
      assert client.fields == fields0 + ClientFields(path);
      client.methods := client.methods + [CreateRequestTarget];
    }

    /** The `addResourceMethod` calls of the traversal, one per request in turn. */
    method AddResourceMethods(client: ResourceClient, requests: seq<MethodRequest>)
      modifies client
      ensures client.methods == old(client.methods) + ClientMethods(naming, ctx, requests)
      ensures client.fields == old(client.fields)
    {
      ghost var methods0 := client.methods;
      var i := 0;
      while i < |requests|
        invariant 0 <= i <= |requests|
        invariant client.methods == methods0 + ClientMethods(naming, ctx, requests[..i])
        invariant client.fields == old(client.fields)
      {
        ghost var added := ClientMethods(naming, ctx, requests[..i]);
        AddResourceMethod(client, requests[i]);
        ClientMethodsStep(naming, ctx, requests, i);
        AppendAssoc(methods0, added, [ClientMethodFor(naming, ctx, requests[i])]);
        i := i + 1;
      }
      assert requests[..i] == requests;
    }

    /** `e.onCreateResourceInterface(resourceClient, resource)` for every extension in
        turn. */
    method CallInterfaceHooks(interfaceName: string, resource: Resource)
      modifies this
      ensures hookLog == old(hookLog) + ServiceGenerator.InterfaceHooks(extensions, interfaceName, resource)
      ensures classes == old(classes)
    {
      var k := 0;
      while k < |extensions|
        invariant 0 <= k <= |extensions|
        invariant hookLog == old(hookLog) + ServiceGenerator.InterfaceHooks(extensions[..k], interfaceName, resource)
        invariant classes == old(classes)
      {
        ServiceGenerator.InterfaceHooksSnoc(extensions, k, interfaceName, resource);
        hookLog := hookLog + [InterfaceCreated(extensions[k], interfaceName, resource)];
        k := k + 1;
      }
      PrefixFull(extensions);
    }

    /** `addResourceMethod`: appends the method for the request to the client class and
        nothing else; in particular no extension is called. */
    method AddResourceMethod(client: ResourceClient, request: MethodRequest)
      modifies client
      ensures client.methods == old(client.methods) + [ClientMethodFor(naming, ctx, request)]
      ensures client.fields == old(client.fields)
    {
      var action := request.action;
      var actionName := ToLowerRoot(action.verb.Name());
      var methodName := naming.resourceMethodName(action,
                          if request.addBodyMimeTypeInMethodName then request.bodyMime else None);
      var resourceMethod: ClientMethod;
      if |request.uniqueResponseMimeTypes| == 0 {
        if request.bodyMime.Some? {
          resourceMethod := ClientMethod([Public], VoidType, methodName, ctx.bodyParameters(request.bodyMime),
                                 RequestStatement(actionName, request.bodyMime, None));
        } else {
          resourceMethod := ClientMethod([Public], VoidType, methodName, [], RequestStatement(actionName, None, None));
        }
      } else {
        var methodReturnType := ctx.responseEntityClass(request.uniqueResponseMimeTypes[0]);
        var methodReturnTypeLiteral := TypeLiteral(methodReturnType);
        if request.bodyMime.Some? {
          resourceMethod := ClientMethod([Public], methodReturnType, methodName, ctx.bodyParameters(request.bodyMime),
                                 RequestStatement(actionName, request.bodyMime, Some(methodReturnTypeLiteral)));
        } else {
          resourceMethod := ClientMethod([Public], methodReturnType, methodName, [],
                                 RequestStatement(actionName, None, Some(methodReturnTypeLiteral)));
        }
      }
      client.methods := client.methods + [resourceMethod];
    }
  }
}

=== FILE: generator.dfy ===
/**
 * The service generator (`Generator`): one JAX-RS resource interface per resource,
 * one annotated method per (action, request body variant), and a nested
 * `<MethodName>Response` class of static builders per method that has one.
 *
 * The traversal that decides which `addResourceMethod` calls a resource gets is
 * `AbstractGenerator.addResourceMethods`, which is not part of this model: it becomes
 * the list of `MethodRequest`s handed to `CreateResourceInterface`.
 */
module ServiceGenerator {
  import opened JavaText
  import opened LinkedMaps
  import opened Model
  import opened Templates
  import opened ResponseBuilders
  import opened Sequences

  // ---------------------------------------------------------------------------
  // The @Path value of a resource interface.

  /** `defaultIfBlank(strip(relativeUri, "/"), "/")`: the relative URI without its
      leading and trailing slashes, or "/" when nothing but blanks is left. */
  function PathAnnotationValue(relativeUri: string): (v: string)
    ensures |v| > 0
    ensures v == "/" <==> IsBlank(Strip(relativeUri, '/'))
    ensures v != "/" ==> !IsBlank(v) && v[0] != '/' && v[|v| - 1] != '/'
    ensures v != "/" ==> exists i: nat, j: nat :: relativeUri == Pad('/', i) + v + Pad('/', j)
  {
    var path := Strip(relativeUri, '/');
    StripUnpads(relativeUri, '/');
    assert IsBlank(path) || |path| > 0;
    DefaultIfBlank(path, "/")
  }

  /** Slashes around a path do not change the annotation: it is the path itself. */
  lemma PathOfSlashedUri(path: string, i: nat, j: nat)
    requires !IsBlank(path) && path[0] != '/' && path[|path| - 1] != '/'
    ensures PathAnnotationValue(Pad('/', i) + path + Pad('/', j)) == path
  {
    StripPadded(path, '/', i, j);
  }

  /** A URI made only of slashes (the root resource "/" among them) is annotated "/". */
  lemma PathOfRootUri(n: nat)
    ensures PathAnnotationValue(Pad('/', n)) == "/"
  {
    StripPadded([], '/', n, 0);
    assert Pad('/', n) + [] + Pad('/', 0) == Pad('/', n);
  }

  // ---------------------------------------------------------------------------
  // Resource method declarations.

  /** The configured async trait is set and the action itself applies it; traits
      applied by the resource do not count. */
  predicate IsAsync(config: Configuration, action: Action) {
    !IsBlank(config.asyncResourceTrait) && config.asyncResourceTrait in action.traits
  }

  /** The method name the generator asks for: the body mime type takes part only when
      the traversal says so. */
  function RequestedName(naming: Naming, request: MethodRequest): string {
    naming.resourceMethodName(request.action,
                              if request.addBodyMimeTypeInMethodName then request.bodyMime else None)
  }

  /** `capitalize(methodName) + "Response"`. */
  function ResponseClassName(methodName: string): string {
    Capitalize(methodName) + "Response"
  }

  /** The response class of a method: it extends the response wrapper type and holds
      the builders of every response of the action. */
  function ResponseClassFor(naming: Naming, ctx: TypeContext, className: string, action: Action): ResponseClass {
    ResponseClass(className, ctx.responseWrapperType, AllBuilders(naming, ctx, className, action.responses))
  }

  /** A template parameter `(variable name, class)` as a method parameter. */
  function TemplateParams(templateParameters: seq<(string, JType)>): (ps: seq<Param>)
    ensures |ps| == |templateParameters|
    ensures forall i :: 0 <= i < |ps| ==>
      ps[i] == Param(templateParameters[i].1, templateParameters[i].0, TemplateParameter, [])
  {
    seq(|templateParameters|, i requires 0 <= i < |templateParameters| =>
          Param(templateParameters[i].1, templateParameters[i].0, TemplateParameter, []))
  }

  /** `addAsyncResponseParameter`: an `AsyncResponse` named after the trait and
      annotated `@Suspended`. */
  function AsyncParam(naming: Naming, asyncResourceTrait: string): Param {
    Param(ClassType("javax.ws.rs.container.AsyncResponse", false), naming.variableName(asyncResourceTrait),
          AsyncResponse, ["javax.ws.rs.container.Suspended"])
  }

  /** The parameters of a resource method, group after group. */
  function MethodParams(naming: Naming, ctx: TypeContext, raml: Raml, config: Configuration,
                        action: Action, bodyMime: Option<MimeType>): seq<Param>
  {
    Assemble(TemplateParameters(naming, ctx, raml, action), ctx.pathParameters(action),
             ctx.headerParameters(action), ctx.queryParameters(action), ctx.bodyParameters(bodyMime),
             if IsAsync(config, action) then Some(AsyncParam(naming, config.asyncResourceTrait)) else None)
  }

  /** Template parameters, then path, header, query and body parameters, then the
      async parameter if there is one. */
  function Assemble(templateParameters: seq<(string, JType)>, path: seq<Param>, header: seq<Param>,
                    query: seq<Param>, body: seq<Param>, async: Option<Param>): seq<Param>
  {
    TemplateParams(templateParameters) + path + header + query + body
      + (if async.Some? then [async.value] else [])
  }

  /** The template parameters open the list, one per entry of the template parameter
      map in map order, named by its key; the async parameter closes it when there is
      one; the groups in between keep their order path, header, query, body. */
  lemma ParameterGroups(templateParameters: seq<(string, JType)>, p: seq<Param>, h: seq<Param>,
                        q: seq<Param>, b: seq<Param>, async: Option<Param>)
    ensures var ps := Assemble(templateParameters, p, h, q, b, async);
      var t := |templateParameters|;
      && |ps| == t + |p| + |h| + |q| + |b| + (if async.Some? then 1 else 0)
      && (forall i :: 0 <= i < t ==>
            ps[i].role == TemplateParameter && ps[i].name == templateParameters[i].0 &&
            ps[i].ptype == templateParameters[i].1)
      && ps[t..t + |p|] == p
      && ps[t + |p|..t + |p| + |h|] == h
      && ps[t + |p| + |h|..t + |p| + |h| + |q|] == q
      && ps[t + |p| + |h| + |q|..t + |p| + |h| + |q| + |b|] == b
      && (async.Some? ==> ps[|ps| - 1] == async.value)
  {
    var tps := TemplateParams(templateParameters);
    var f := if async.Some? then [async.value] else [];
    var s := tps + p + h + q + b + f;
    assert s == tps + (p + (h + (q + (b + f))));
  }

  /** An async method gets exactly one extra parameter, appended after all the others:
      the `@Suspended AsyncResponse` named after the async trait. Any other method ends
      with its body parameters. */
  lemma AsyncParameterLast(naming: Naming, ctx: TypeContext, raml: Raml, config: Configuration,
                           action: Action, bodyMime: Option<MimeType>)
    ensures var ps := MethodParams(naming, ctx, raml, config, action, bodyMime);
      var rest := Assemble(TemplateParameters(naming, ctx, raml, action), ctx.pathParameters(action),
                           ctx.headerParameters(action), ctx.queryParameters(action),
                           ctx.bodyParameters(bodyMime), None);
      && (IsAsync(config, action) ==>
            && ps == rest + [ps[|ps| - 1]]
            && ps[|ps| - 1].role == AsyncResponse
            && ps[|ps| - 1].name == naming.variableName(config.asyncResourceTrait)
            && ps[|ps| - 1].ptype == ClassType("javax.ws.rs.container.AsyncResponse", false)
            && ps[|ps| - 1].annotations == ["javax.ws.rs.container.Suspended"])
      && (!IsAsync(config, action) ==> ps == rest)
  {
  }

  /** The declaration `addResourceMethod` adds, given the method names already in the
      interface and the return type. */
  function MethodDeclFor(naming: Naming, ctx: TypeContext, raml: Raml, config: Configuration,
                         existing: seq<string>, request: MethodRequest, returnType: JType): MethodDecl
  {
    MethodDecl(ctx.uniqueMethodName(existing, RequestedName(naming, request)),
               returnType,
               if config.methodThrowException.Some? then [config.methodThrowException.value] else [],
               request.action.verb.Name(),
               request.bodyMime,
               request.uniqueResponseMimeTypes,
               MethodParams(naming, ctx, raml, config, request.action, request.bodyMime))
  }

  /** One `onAddResourceMethod` call per extension, in registration order. */
  function MethodHooks(extensions: seq<string>, decl: MethodDecl, request: MethodRequest): (hs: seq<HookEvent>)
    ensures |hs| == |extensions|
    ensures forall i :: 0 <= i < |hs| ==>
      hs[i] == MethodAdded(extensions[i], decl, request.action, request.bodyMime, request.uniqueResponseMimeTypes)
  {
    seq(|extensions|, i requires 0 <= i < |extensions| =>
          MethodAdded(extensions[i], decl, request.action, request.bodyMime, request.uniqueResponseMimeTypes))
  }

  /** One `onCreateResourceInterface` call per extension, in registration order. */
  function InterfaceHooks(extensions: seq<string>, interfaceName: string, resource: Resource): (hs: seq<HookEvent>)
    ensures |hs| == |extensions|
    ensures forall i :: 0 <= i < |hs| ==> hs[i] == InterfaceCreated(extensions[i], interfaceName, resource)
  {
    seq(|extensions|, i requires 0 <= i < |extensions| => InterfaceCreated(extensions[i], interfaceName, resource))
  }

  lemma TemplateParamsSnoc(templateParameters: seq<(string, JType)>, i: nat)
    requires i < |templateParameters|
    ensures TemplateParams(templateParameters[..i + 1]) ==
      TemplateParams(templateParameters[..i]) + [Param(templateParameters[i].1, templateParameters[i].0, TemplateParameter, [])]
  {
  }

  lemma MethodHooksSnoc(extensions: seq<string>, k: nat, decl: MethodDecl, request: MethodRequest)
    requires k < |extensions|
    ensures MethodHooks(extensions[..k + 1], decl, request) ==
      MethodHooks(extensions[..k], decl, request) +
      [MethodAdded(extensions[k], decl, request.action, request.bodyMime, request.uniqueResponseMimeTypes)]
  {
  }

  lemma InterfaceHooksSnoc(extensions: seq<string>, k: nat, interfaceName: string, resource: Resource)
    requires k < |extensions|
    ensures InterfaceHooks(extensions[..k + 1], interfaceName, resource) ==
      InterfaceHooks(extensions[..k], interfaceName, resource) + [InterfaceCreated(extensions[k], interfaceName, resource)]
  {
  }

  /** The hook calls of a series of added methods, method after method. */
  function MethodAddedLog(extensions: seq<string>, decls: seq<MethodDecl>, requests: seq<MethodRequest>): seq<HookEvent>
    requires |decls| == |requests|
  {
    if requests == [] then []
    else MethodAddedLog(extensions, decls[..|decls| - 1], requests[..|requests| - 1])
         + MethodHooks(extensions, decls[|decls| - 1], requests[|requests| - 1])
  }

  /** Every method hook call comes after the method has all its parameters: each event
      of the log carries a complete declaration of one of the added methods. */
  lemma {:induction false} HooksSeeFinishedMethods(extensions: seq<string>, decls: seq<MethodDecl>,
                                                   requests: seq<MethodRequest>, e: HookEvent)
    requires |decls| == |requests|
    requires e in MethodAddedLog(extensions, decls, requests)
    ensures e.MethodAdded? && e.extension in extensions
    ensures exists k :: 0 <= k < |decls| && e.declaration == decls[k] && e.action == requests[k].action
  {
    var n := |requests|;
    if e in MethodAddedLog(extensions, decls[..n - 1], requests[..n - 1]) {
      HooksSeeFinishedMethods(extensions, decls[..n - 1], requests[..n - 1], e);
      var k :| 0 <= k < n - 1 && e.declaration == decls[..n - 1][k] && e.action == requests[..n - 1][k].action;
      assert decls[k] == decls[..n - 1][k] && requests[k] == requests[..n - 1][k];
    } else {
      var hs := MethodHooks(extensions, decls[n - 1], requests[n - 1]);
      assert e in hs;
      var i :| 0 <= i < |hs| && hs[i] == e;
      assert e.extension == extensions[i];
    }
  }

  lemma MethodAddedLogSnoc(extensions: seq<string>, decls: seq<MethodDecl>, requests: seq<MethodRequest>,
                           i: nat, decl: MethodDecl)
    requires i < |requests| && |decls| == i
    ensures MethodAddedLog(extensions, decls + [decl], requests[..i + 1]) ==
      MethodAddedLog(extensions, decls, requests[..i]) + MethodHooks(extensions, decl, requests[i])
  {
    assert (decls + [decl])[..i] == decls;
    PrefixStep(requests, i);
  }

  // ---------------------------------------------------------------------------
  // The generated interface and the generator.

  function DeclNames(decls: seq<MethodDecl>): (ns: seq<string>)
    ensures |ns| == |decls|
    ensures forall i :: 0 <= i < |ns| ==> ns[i] == decls[i].name
  {
    seq(|decls|, i requires 0 <= i < |decls| => decls[i].name)
  }

  lemma DeclNamesAppend(a: seq<MethodDecl>, b: seq<MethodDecl>)
    ensures DeclNames(a + b) == DeclNames(a) + DeclNames(b)
  {
  }

  /** `addResourceMethod` creates a response class for the request: always for an
      async method, and otherwise unless it returns void because it has no response
      mime types and the configuration asks for void. */
  predicate CreatesResponseClass(config: Configuration, request: MethodRequest) {
    IsAsync(config, request.action)
      || !(|request.uniqueResponseMimeTypes| == 0 && config.emptyResponseReturnVoid)
  }

  /** The return type `addResourceMethod` declares for the request. */
  function ReturnTypeFor(naming: Naming, config: Configuration, request: MethodRequest): JType {
    if CreatesResponseClass(config, request) && !IsAsync(config, request.action) then
      ClassType(ResponseClassName(RequestedName(naming, request)), false)
    else VoidType
  }

  /** The response class of the request's method, named after the requested name. */
  function AddedClass(naming: Naming, ctx: TypeContext, request: MethodRequest): ResponseClass {
    ResponseClassFor(naming, ctx, ResponseClassName(RequestedName(naming, request)), request.action)
  }

  /** The response class `addResourceMethod` adds for the request, if any. */
  function ResponseClassAdded(naming: Naming, ctx: TypeContext, config: Configuration,
                              request: MethodRequest): seq<ResponseClass>
  {
    if CreatesResponseClass(config, request) then [AddedClass(naming, ctx, request)] else []
  }

  /** How `addResourceMethod` declares the method of a request, given the declarations
      made before it on an interface that already held methods named `existing`. */
  function NextDecl(naming: Naming, ctx: TypeContext, raml: Raml, config: Configuration,
                    existing: seq<string>): (seq<MethodDecl>, MethodRequest) -> MethodDecl
  {
    (pre: seq<MethodDecl>, request: MethodRequest) =>
      MethodDeclFor(naming, ctx, raml, config, existing + DeclNames(pre), request,
                    ReturnTypeFor(naming, config, request))
  }

  /** The declarations a series of successful `addResourceMethod` calls adds to an
      interface already holding methods named `existing`: each one is named against
      every method declared before it. */
  function MethodDecls(naming: Naming, ctx: TypeContext, raml: Raml, config: Configuration,
                       existing: seq<string>, requests: seq<MethodRequest>): (ds: seq<MethodDecl>)
    ensures |ds| == |requests|
  {
    Accumulate(NextDecl(naming, ctx, raml, config, existing), requests)
  }

  /** The response classes `addResourceMethod` adds, as a function of the request. */
  function ClassesAdded(naming: Naming, ctx: TypeContext, config: Configuration): MethodRequest -> seq<ResponseClass>
  {
    (request: MethodRequest) => ResponseClassAdded(naming, ctx, config, request)
  }

  /** The response classes the same series of calls adds, request after request. */
  function ResponseClasses(naming: Naming, ctx: TypeContext, config: Configuration,
                           requests: seq<MethodRequest>): seq<ResponseClass>
  {
    FlatMap(ClassesAdded(naming, ctx, config), requests)
  }

  lemma MethodDeclsStep(naming: Naming, ctx: TypeContext, raml: Raml, config: Configuration,
                        existing: seq<string>, requests: seq<MethodRequest>, i: nat)
    requires i < |requests|
    ensures var pre := MethodDecls(naming, ctx, raml, config, existing, requests[..i]);
      MethodDecls(naming, ctx, raml, config, existing, requests[..i + 1]) ==
        pre + [MethodDeclFor(naming, ctx, raml, config, existing + DeclNames(pre), requests[i],
                             ReturnTypeFor(naming, config, requests[i]))]
  {
    AccumulateStep(NextDecl(naming, ctx, raml, config, existing), requests, i);
  }

  lemma ResponseClassesStep(naming: Naming, ctx: TypeContext, config: Configuration,
                            requests: seq<MethodRequest>, i: nat)
    requires i < |requests|
    ensures ResponseClasses(naming, ctx, config, requests[..i + 1]) ==
      ResponseClasses(naming, ctx, config, requests[..i]) + ResponseClassAdded(naming, ctx, config, requests[i])
  {
    FlatMapStep(ClassesAdded(naming, ctx, config), requests, i);
  }

  /** The k-th declaration of a series is the one `addResourceMethod` makes for the
      k-th request, named against the existing methods and the k declarations before
      it, with the request's own return type. */
  lemma MethodDeclsAt(naming: Naming, ctx: TypeContext, raml: Raml, config: Configuration,
                      existing: seq<string>, requests: seq<MethodRequest>, k: nat)
    requires k < |requests|
    ensures var ds := MethodDecls(naming, ctx, raml, config, existing, requests);
      ds[k] == MethodDeclFor(naming, ctx, raml, config, existing + DeclNames(ds[..k]), requests[k],
                             ReturnTypeFor(naming, config, requests[k]))
  {
    AccumulateAt(NextDecl(naming, ctx, raml, config, existing), requests, k);
  }

  /** A series of calls adds exactly the response classes of the requests that create
      one, each named after the method the request asks for. */
  lemma ResponseClassesOf(naming: Naming, ctx: TypeContext, config: Configuration,
                          requests: seq<MethodRequest>, c: ResponseClass)
    ensures c in ResponseClasses(naming, ctx, config, requests) <==>
      exists k :: 0 <= k < |requests| && CreatesResponseClass(config, requests[k]) &&
        c == AddedClass(naming, ctx, requests[k])
  {
    var f := ClassesAdded(naming, ctx, config);
    FlatMapHas(f, requests, c);
    if c in ResponseClasses(naming, ctx, config, requests) {
      var k :| 0 <= k < |requests| && c in f(requests[k]);
      assert CreatesResponseClass(config, requests[k]) && c == AddedClass(naming, ctx, requests[k]);
    }
    if exists k :: 0 <= k < |requests| && CreatesResponseClass(config, requests[k]) &&
                   c == AddedClass(naming, ctx, requests[k]) {
      var k :| 0 <= k < |requests| && CreatesResponseClass(config, requests[k]) &&
               c == AddedClass(naming, ctx, requests[k]);
      assert c in f(requests[k]);
    }
  }

  /** Some class of `classes` is named `className`. */
  predicate HasClassNamed(classes: seq<ResponseClass>, className: string) {
    exists i :: 0 <= i < |classes| && classes[i].name == className
  }

  /** Request `k` of a series clashes: it creates a response class, and a class of that
      name is already there, either one the interface held (`classes0`) or one the
      requests before it added. */
  predicate Clashes(naming: Naming, ctx: TypeContext, config: Configuration,
                    classes0: seq<ResponseClass>, requests: seq<MethodRequest>, k: nat)
    requires k < |requests|
  {
    && CreatesResponseClass(config, requests[k])
    && HasClassNamed(classes0 + ResponseClasses(naming, ctx, config, requests[..k]),
                     ResponseClassName(RequestedName(naming, requests[k])))
  }

  /** No request of the series clashes. */
  predicate NoClash(naming: Naming, ctx: TypeContext, config: Configuration,
                    classes0: seq<ResponseClass>, requests: seq<MethodRequest>)
  {
    forall k :: 0 <= k < |requests| ==> !Clashes(naming, ctx, config, classes0, requests, k)
  }

  lemma NoClashStep(naming: Naming, ctx: TypeContext, config: Configuration,
                    classes0: seq<ResponseClass>, requests: seq<MethodRequest>, i: nat)
    requires i < |requests| && !Clashes(naming, ctx, config, classes0, requests, i)
    requires forall j :: 0 <= j < i ==> !Clashes(naming, ctx, config, classes0, requests, j)
    ensures forall j :: 0 <= j < i + 1 ==> !Clashes(naming, ctx, config, classes0, requests, j)
  {
  }

  /** On a new interface, request `k` clashes exactly when it creates a response class
      and an earlier request created one of the same name. */
  lemma ClashIff(naming: Naming, ctx: TypeContext, config: Configuration,
                 requests: seq<MethodRequest>, k: nat)
    requires k < |requests|
    ensures Clashes(naming, ctx, config, [], requests, k) <==>
      && CreatesResponseClass(config, requests[k])
      && exists j :: 0 <= j < k && CreatesResponseClass(config, requests[j]) &&
           ResponseClassName(RequestedName(naming, requests[j])) == ResponseClassName(RequestedName(naming, requests[k]))
  {
    var name := ResponseClassName(RequestedName(naming, requests[k]));
    if Clashes(naming, ctx, config, [], requests, k) {
      EarlierClassOfClash(naming, ctx, config, requests, k);
    }
    if CreatesResponseClass(config, requests[k]) &&
       exists j :: 0 <= j < k && CreatesResponseClass(config, requests[j]) &&
                   ResponseClassName(RequestedName(naming, requests[j])) == name {
      var j :| 0 <= j < k && CreatesResponseClass(config, requests[j]) &&
               ResponseClassName(RequestedName(naming, requests[j])) == name;
      EarlierClassClashes(naming, ctx, config, requests, k, j);
    }
  }

  lemma EarlierClassOfClash(naming: Naming, ctx: TypeContext, config: Configuration,
                            requests: seq<MethodRequest>, k: nat)
    requires k < |requests| && Clashes(naming, ctx, config, [], requests, k)
    ensures exists j :: (0 <= j < k && CreatesResponseClass(config, requests[j]) &&
      ResponseClassName(RequestedName(naming, requests[j])) == ResponseClassName(RequestedName(naming, requests[k])))
  {
    var pre := requests[..k];
    var cs := ResponseClasses(naming, ctx, config, pre);
    assert [] + cs == cs;
    var i :| 0 <= i < |cs| && cs[i].name == ResponseClassName(RequestedName(naming, requests[k]));
    ResponseClassesOf(naming, ctx, config, pre, cs[i]);
    var j :| 0 <= j < |pre| && CreatesResponseClass(config, pre[j]) && cs[i] == AddedClass(naming, ctx, pre[j]);
    assert pre[j] == requests[j];
  }

  lemma EarlierClassClashes(naming: Naming, ctx: TypeContext, config: Configuration,
                            requests: seq<MethodRequest>, k: nat, j: nat)
    requires j < k < |requests| && CreatesResponseClass(config, requests[k])
    requires CreatesResponseClass(config, requests[j])
    requires ResponseClassName(RequestedName(naming, requests[j])) == ResponseClassName(RequestedName(naming, requests[k]))
    ensures Clashes(naming, ctx, config, [], requests, k)
  {
    var pre := requests[..k];
    var cs := ResponseClasses(naming, ctx, config, pre);
    assert [] + cs == cs;
    assert pre[j] == requests[j];
    ResponseClassesOf(naming, ctx, config, pre, AddedClass(naming, ctx, requests[j]));
    var i :| 0 <= i < |cs| && cs[i] == AddedClass(naming, ctx, requests[j]);
    assert cs[i].name == ResponseClassName(RequestedName(naming, requests[k]));
  }

  /** Request `k` is the first of the series that clashes. */
  predicate FirstClash(naming: Naming, ctx: TypeContext, config: Configuration,
                       classes0: seq<ResponseClass>, requests: seq<MethodRequest>, k: nat)
  {
    && k < |requests|
    && Clashes(naming, ctx, config, classes0, requests, k)
    && forall j :: 0 <= j < k ==> !Clashes(naming, ctx, config, classes0, requests, j)
  }

  /** The resource interface being filled: its methods and nested response classes. */
  class ResourceInterface {
    const name: string
    const pathAnnotation: string
    var methods: seq<MethodDecl>
    var responseClasses: seq<ResponseClass>

    constructor (name: string, pathAnnotation: string)
      ensures this.name == name && this.pathAnnotation == pathAnnotation
      ensures methods == [] && responseClasses == []
    {
      this.name := name;
      this.pathAnnotation := pathAnnotation;
      methods := [];
      responseClasses := [];
    }

    /** A nested class of that name exists already. */
    predicate HasClass(className: string)
      reads this
    {
      HasClassNamed(responseClasses, className)
    }

    /** The names of the methods declared so far, in declaration order. */
    function MethodNames(): (ns: seq<string>)
      reads this`methods
      ensures |ns| == |methods|
      ensures forall i :: 0 <= i < |ns| ==> ns[i] == methods[i].name
    {
      DeclNames(methods)
    }
  }

  class Generator {
    const config: Configuration
    const naming: Naming
    const ctx: TypeContext
    const raml: Raml
    /** The registered `GeneratorExtension`s, by name, in registration order. */
    const extensions: seq<string>
    /** Every extension call so far, in call order. */
    var hookLog: seq<HookEvent>

    constructor (config: Configuration, naming: Naming, ctx: TypeContext, raml: Raml, extensions: seq<string>)
      ensures this.config == config && this.naming == naming && this.ctx == ctx
      ensures this.raml == raml && this.extensions == extensions
      ensures hookLog == []
    {
      this.config := config;
      this.naming := naming;
      this.ctx := ctx;
      this.raml := raml;
      this.extensions := extensions;
      hookLog := [];
    }

    /** `createResourceMethodReturnType`: adds the `<MethodName>Response` class, or
        fails when the interface already holds a class of that name. */
    method CreateResourceMethodReturnType(iface: ResourceInterface, methodName: string, action: Action)
      returns (r: Result<JType>)
      modifies iface
      ensures var className := ResponseClassName(methodName);
        && (old(iface.HasClass(className)) ==>
              r == Failure(ClassAlreadyExists(className)) && iface.responseClasses == old(iface.responseClasses))
        && (!old(iface.HasClass(className)) ==>
              r == Success(ClassType(className, false)) &&
              iface.responseClasses == old(iface.responseClasses) + [ResponseClassFor(naming, ctx, className, action)])
      ensures iface.methods == old(iface.methods)
    {
      var className := Capitalize(methodName) + "Response";
      if iface.HasClass(className) {
        return Failure(ClassAlreadyExists(className));
      }
      var builders := [];
      var i := 0;
      while i < |action.responses|
        invariant 0 <= i <= |action.responses|
        invariant builders == AllBuilders(naming, ctx, className, action.responses[..i])
        invariant iface.responseClasses == old(iface.responseClasses) && iface.methods == old(iface.methods)
      {
        var bs := CreateResponseBuilders(naming, ctx, className, action.responses[i]);
        PrefixStep(action.responses, i);
        builders := builders + bs;
        i := i + 1;
      }
      PrefixFull(action.responses);
      iface.responseClasses := iface.responseClasses + [ResponseClass(className, ctx.responseWrapperType, builders)];
      r := Success(ClassType(className, false));
    }

    /** `getResourceMethodReturnType`: an async method returns void but still gets its
        response class; otherwise a method without response mime types returns void
        without one when the configuration asks for it; any other method returns its
        response class. */
    method GetResourceMethodReturnType(iface: ResourceInterface, methodName: string, action: Action,
                                       returnsVoid: bool, asyncMethod: bool)
      returns (r: Result<JType>)
      modifies iface
      ensures var className := ResponseClassName(methodName);
        var creates := asyncMethod || !(returnsVoid && config.emptyResponseReturnVoid);
        && (!creates ==> r == Success(VoidType) && iface.responseClasses == old(iface.responseClasses))
        && (creates && old(iface.HasClass(className)) ==>
              r == Failure(ClassAlreadyExists(className)) && iface.responseClasses == old(iface.responseClasses))
        && (creates && !old(iface.HasClass(className)) ==>
              r == Success(if asyncMethod then VoidType else ClassType(className, false)) &&
              iface.responseClasses == old(iface.responseClasses) + [ResponseClassFor(naming, ctx, className, action)])
      ensures iface.methods == old(iface.methods)
    {
      if asyncMethod {
        var created := CreateResourceMethodReturnType(iface, methodName, action);
        if created.Failure? {
          return created;
        }
        return Success(VoidType);
      } else if returnsVoid && config.emptyResponseReturnVoid {
        return Success(VoidType);
      } else {
        r := CreateResourceMethodReturnType(iface, methodName, action);
      }
    }

    /** `addResourceMethod`: declares the method with its parameters, then calls every
        extension. When the response class cannot be created nothing is declared and
        no extension is called. */
    method AddResourceMethod(iface: ResourceInterface, request: MethodRequest) returns (r: Result<MethodDecl>)
      modifies iface, this
      ensures r.Failure? <==>
        CreatesResponseClass(config, request) && old(iface.HasClass(ResponseClassName(RequestedName(naming, request))))
      ensures r.Failure? ==>
        && r.error == ClassAlreadyExists(ResponseClassName(RequestedName(naming, request)))
        && iface.methods == old(iface.methods) && iface.responseClasses == old(iface.responseClasses)
        && hookLog == old(hookLog)
      ensures r.Success? ==>
        && r.value == MethodDeclFor(naming, ctx, raml, config, old(iface.MethodNames()), request, r.value.returnType)
        && iface.methods == old(iface.methods) + [r.value]
        && hookLog == old(hookLog) + MethodHooks(extensions, r.value, request)
      ensures r.Success? && IsAsync(config, request.action) ==> r.value.returnType == VoidType
      ensures r.Success? && !IsAsync(config, request.action) &&
              |request.uniqueResponseMimeTypes| == 0 && config.emptyResponseReturnVoid ==>
                r.value.returnType == VoidType && iface.responseClasses == old(iface.responseClasses)
      ensures r.Success? && !IsAsync(config, request.action) &&
              !(|request.uniqueResponseMimeTypes| == 0 && config.emptyResponseReturnVoid) ==>
                r.value.returnType == ClassType(ResponseClassName(RequestedName(naming, request)), false)
      ensures r.Success? && (IsAsync(config, request.action) ||
                             !(|request.uniqueResponseMimeTypes| == 0 && config.emptyResponseReturnVoid)) ==>
                iface.responseClasses == old(iface.responseClasses) +
                  [ResponseClassFor(naming, ctx, ResponseClassName(RequestedName(naming, request)), request.action)]
      ensures r.Success? ==>
        && r.value.returnType == ReturnTypeFor(naming, config, request)
        && iface.responseClasses == old(iface.responseClasses) + ResponseClassAdded(naming, ctx, config, request)
    {
      ghost var names0 := iface.MethodNames();
      var action := request.action;
      var methodName := naming.resourceMethodName(action,
                          if request.addBodyMimeTypeInMethodName then request.bodyMime else None);
      var asyncResourceTrait := config.asyncResourceTrait;
      var asyncMethod := !IsBlank(asyncResourceTrait) && asyncResourceTrait in action.traits;
      var returnType := GetResourceMethodReturnType(iface, methodName, action,
                                                    |request.uniqueResponseMimeTypes| == 0, asyncMethod);
      if returnType.Failure? {
        return Failure(returnType.error);
      }
      assert iface.MethodNames() == names0;
      var decl := DeclareMethod(iface, request, methodName, asyncMethod, returnType.value);
      r := Success(decl);
    }

    /** The rest of `addResourceMethod` once the return type is known: declare the
        method under a unique name with its parameters, then let every extension see it. */
    method DeclareMethod(iface: ResourceInterface, request: MethodRequest, methodName: string,
                         asyncMethod: bool, returnType: JType) returns (decl: MethodDecl)
      requires methodName == RequestedName(naming, request)
      requires asyncMethod == IsAsync(config, request.action)
      modifies iface`methods, this
      ensures decl == MethodDeclFor(naming, ctx, raml, config, old(iface.MethodNames()), request, returnType)
      ensures iface.methods == old(iface.methods) + [decl]
      ensures hookLog == old(hookLog) + MethodHooks(extensions, decl, request)
    {
      var action := request.action;
      var uniqueName := ctx.uniqueMethodName(iface.MethodNames(), methodName);
      var throws := if config.methodThrowException.Some? then [config.methodThrowException.value] else [];
      var params := AddParameters(action, request.bodyMime, asyncMethod);
      decl := MethodDecl(uniqueName, returnType, throws, action.verb.Name(), request.bodyMime,
                         request.uniqueResponseMimeTypes, params);
      iface.methods := iface.methods + [decl];
      CallMethodHooks(decl, request);
    }

    /** The parameter statements of `addResourceMethod`: the template parameters in map
        order, the path, header, query and body parameters, and the async response. */
    method AddParameters(action: Action, bodyMime: Option<MimeType>, asyncMethod: bool)
      returns (params: seq<Param>)
      requires asyncMethod == IsAsync(config, action)
      ensures params == MethodParams(naming, ctx, raml, config, action, bodyMime)
    {
      params := [];
      var templateParameterTypes := GetTemplateParameterClasses(naming, ctx, raml, action);
      var i := 0;
      while i < |templateParameterTypes|
        invariant 0 <= i <= |templateParameterTypes|
        invariant params == TemplateParams(templateParameterTypes[..i])
      {
        TemplateParamsSnoc(templateParameterTypes, i);
        params := params + [Param(templateParameterTypes[i].1, templateParameterTypes[i].0, TemplateParameter, [])];
        i := i + 1;
      }
      PrefixFull(templateParameterTypes);
      params := params + ctx.pathParameters(action);
      params := params + ctx.headerParameters(action);
      params := params + ctx.queryParameters(action);
      params := params + ctx.bodyParameters(bodyMime);
      if asyncMethod {
        params := params + [AsyncParam(naming, config.asyncResourceTrait)];
      }
    }

    /** `e.onAddResourceMethod(method, action, bodyMimeType, uniqueResponseMimeTypes)`
        for every extension in turn. */
    method CallMethodHooks(decl: MethodDecl, request: MethodRequest)
      modifies this
      ensures hookLog == old(hookLog) + MethodHooks(extensions, decl, request)
    {
      var k := 0;
      while k < |extensions|
        invariant 0 <= k <= |extensions|
        invariant hookLog == old(hookLog) + MethodHooks(extensions[..k], decl, request)
      {
        MethodHooksSnoc(extensions, k, decl, request);
        hookLog := hookLog + [MethodAdded(extensions[k], decl, request.action, request.bodyMime,
                                          request.uniqueResponseMimeTypes)];
        k := k + 1;
      }
      PrefixFull(extensions);
    }

    /** `e.onCreateResourceInterface(resourceInterface, resource)` for every extension
        in turn. */
    method CallInterfaceHooks(interfaceName: string, resource: Resource)
      modifies this
      ensures hookLog == old(hookLog) + InterfaceHooks(extensions, interfaceName, resource)
    {
      var k := 0;
      while k < |extensions|
        invariant 0 <= k <= |extensions|
        invariant hookLog == old(hookLog) + InterfaceHooks(extensions[..k], interfaceName, resource)
      {
        InterfaceHooksSnoc(extensions, k, interfaceName, resource);
        hookLog := hookLog + [InterfaceCreated(extensions[k], interfaceName, resource)];
        k := k + 1;
      }
      PrefixFull(extensions);
    }

    /** `createResourceInterface`: the interface named after the resource, annotated
        with its path, holding one method per request of the traversal, after which
        every extension is told about the interface. */
    method CreateResourceInterface(resource: Resource, requests: seq<MethodRequest>)
      returns (r: Result<ResourceInterface>)
      modifies this
      ensures r.Success? ==>
        && fresh(r.value)
        && r.value.name == naming.resourceInterfaceName(resource)
        && r.value.pathAnnotation == PathAnnotationValue(resource.relativeUri)
        && r.value.methods == MethodDecls(naming, ctx, raml, config, [], requests)
        && r.value.responseClasses == ResponseClasses(naming, ctx, config, requests)
        && hookLog == old(hookLog) + MethodAddedLog(extensions, r.value.methods, requests)
                      + InterfaceHooks(extensions, r.value.name, resource)
      ensures r.Success? <==> NoClash(naming, ctx, config, [], requests)
      ensures r.Failure? ==> (
        exists k: nat :: && FirstClash(naming, ctx, config, [], requests, k)
                    && r.error == ClassAlreadyExists(ResponseClassName(RequestedName(naming, requests[k])))
                    && hookLog == old(hookLog) + MethodAddedLog(extensions, MethodDecls(naming, ctx, raml, config, [], requests[..k]),
                                                                requests[..k]))
    {
      var resourceInterfaceName := naming.resourceInterfaceName(resource);
      var path := Strip(resource.relativeUri, '/');
      var iface := new ResourceInterface(resourceInterfaceName, DefaultIfBlank(path, "/"));
      var added := AddResourceMethods(iface, requests);
      if added.Failure? {
        return Failure(added.error);
      }
      assert iface.methods == added.value;
      CallInterfaceHooks(iface.name, resource);
      r := Success(iface);
    }

    /** The `addResourceMethod` calls the resource traversal makes, one per request in
        turn; the first failure ends the series. */
    method AddResourceMethods(iface: ResourceInterface, requests: seq<MethodRequest>)
      returns (r: Result<seq<MethodDecl>>)
      modifies iface, this
      ensures r.Success? ==>
        && r.value == MethodDecls(naming, ctx, raml, config, old(iface.MethodNames()), requests)
        && iface.methods == old(iface.methods) + r.value
        && iface.responseClasses == old(iface.responseClasses) + ResponseClasses(naming, ctx, config, requests)
        && hookLog == old(hookLog) + MethodAddedLog(extensions, r.value, requests)
      ensures r.Success? <==> NoClash(naming, ctx, config, old(iface.responseClasses), requests)
      ensures r.Failure? ==> (
        exists k: nat :: && FirstClash(naming, ctx, config, old(iface.responseClasses), requests, k)
                    && r.error == ClassAlreadyExists(ResponseClassName(RequestedName(naming, requests[k])))
                    && iface.methods == old(iface.methods) + MethodDecls(naming, ctx, raml, config, old(iface.MethodNames()), requests[..k])
                    && iface.responseClasses == old(iface.responseClasses) + ResponseClasses(naming, ctx, config, requests[..k])
                    && hookLog == old(hookLog) + MethodAddedLog(extensions,
                                                                MethodDecls(naming, ctx, raml, config, old(iface.MethodNames()), requests[..k]),
                                                                requests[..k]))
    {
      ghost var methods0, classes0, log0 := iface.methods, iface.responseClasses, hookLog;
      ghost var names0 := iface.MethodNames();
      var decls: seq<MethodDecl> := [];
      var i := 0;
      while i < |requests|
        invariant 0 <= i <= |requests|
        invariant decls == MethodDecls(naming, ctx, raml, config, names0, requests[..i])
        invariant iface.methods == methods0 + decls
        invariant iface.responseClasses == classes0 + ResponseClasses(naming, ctx, config, requests[..i])
        invariant hookLog == log0 + MethodAddedLog(extensions, decls, requests[..i])
        invariant forall j :: 0 <= j < i ==> !Clashes(naming, ctx, config, classes0, requests, j)
      {
        var added := AddNextMethod(iface, requests, i, names0, methods0, classes0, log0, decls);
        if added.Failure? {
          r := Failure(added.error);
          assert && FirstClash(naming, ctx, config, classes0, requests, i)
                 && r.error == ClassAlreadyExists(ResponseClassName(RequestedName(naming, requests[i])))
                 && iface.methods == methods0 + MethodDecls(naming, ctx, raml, config, names0, requests[..i])
                 && iface.responseClasses == classes0 + ResponseClasses(naming, ctx, config, requests[..i])
                 && hookLog == log0 + MethodAddedLog(extensions, MethodDecls(naming, ctx, raml, config, names0, requests[..i]),
                                                     requests[..i]);
          return;
        }
        NoClashStep(naming, ctx, config, classes0, requests, i);
        decls := decls + [added.value];
        i := i + 1;
      }
      PrefixFull(requests);
      r := Success(decls);
    }

    /** One turn of `AddResourceMethods`: the `addResourceMethod` call for request `i`
        after the declarations `decls` of the requests before it. */
    method AddNextMethod(iface: ResourceInterface, requests: seq<MethodRequest>, i: nat,
                         ghost names0: seq<string>, ghost methods0: seq<MethodDecl>,
                         ghost classes0: seq<ResponseClass>, ghost log0: seq<HookEvent>,
                         ghost decls: seq<MethodDecl>)
      returns (r: Result<MethodDecl>)
      requires i < |requests| && names0 == DeclNames(methods0)
      requires decls == MethodDecls(naming, ctx, raml, config, names0, requests[..i])
      requires iface.methods == methods0 + decls
      requires iface.responseClasses == classes0 + ResponseClasses(naming, ctx, config, requests[..i])
      requires hookLog == log0 + MethodAddedLog(extensions, decls, requests[..i])
      modifies iface, this
      ensures r.Failure? <==> Clashes(naming, ctx, config, classes0, requests, i)
      ensures r.Failure? ==>
        && r.error == ClassAlreadyExists(ResponseClassName(RequestedName(naming, requests[i])))
        && iface.methods == old(iface.methods) && iface.responseClasses == old(iface.responseClasses)
        && hookLog == old(hookLog)
      ensures r.Success? ==>
        && decls + [r.value] == MethodDecls(naming, ctx, raml, config, names0, requests[..i + 1])
        && iface.methods == methods0 + (decls + [r.value])
        && iface.responseClasses == classes0 + ResponseClasses(naming, ctx, config, requests[..i + 1])
        && hookLog == log0 + MethodAddedLog(extensions, decls + [r.value], requests[..i + 1])
    {
      DeclNamesAppend(methods0, decls);
      r := AddResourceMethod(iface, requests[i]);
      if r.Success? {
        MethodAddedLogSnoc(extensions, decls, requests, i, r.value);
        MethodDeclsStep(naming, ctx, raml, config, names0, requests, i);
        ResponseClassesStep(naming, ctx, config, requests, i);
        AppendAssoc(log0, MethodAddedLog(extensions, decls, requests[..i]), MethodHooks(extensions, r.value, requests[i]));
        AppendAssoc(methods0, decls, [r.value]);
        AppendAssoc(classes0, ResponseClasses(naming, ctx, config, requests[..i]),
                    ResponseClassAdded(naming, ctx, config, requests[i]));
      }
    }
  }
}

=== FILE: java_text.dfy ===
/**
 * The small pieces of the Java and commons-lang library that the generators lean on:
 * blank tests, stripping a character from both ends, defaulting a blank string,
 * capitalising, lower-casing with the root locale, substring search and the lenient
 * integer parse `NumberUtils.toInt`.
 */
module JavaText {
  import opened Sequences

  datatype Option<+T> = None | Some(value: T)

  /** `Character.isWhitespace` as of Java 8 (Unicode 6.2): the ASCII controls it
      accepts and the Unicode space, line and paragraph separators other than the
      three non-breaking spaces. U+180E still counts as a space separator there. */
  predicate IsWhitespace(c: char) {
    var n := c as int;
    n == 0x20 || (0x09 <= n <= 0x0D) || (0x1C <= n <= 0x1F) || n == 0x1680 || n == 0x180E
    || (0x2000 <= n <= 0x2006) || (0x2008 <= n <= 0x200A)
    || n == 0x2028 || n == 0x2029 || n == 0x205F || n == 0x3000
  }

  /** `StringUtils.isBlank`: empty or whitespace only. */
  predicate IsBlank(s: string) {
    forall k :: 0 <= k < |s| ==> IsWhitespace(s[k])
  }

  /** True when every character of `s` is `c`. */
  predicate OnlyChar(s: string, c: char) {
    forall k :: 0 <= k < |s| ==> s[k] == c
  }

  /** `n` copies of `c`. */
  function Pad(c: char, n: nat): (r: string)
    ensures |r| == n && OnlyChar(r, c)
  {
    if n == 0 then [] else [c] + Pad(c, n - 1)
  }

  /** Any string made of `c` alone is the padding of its length. */
  lemma {:induction false} OnlyCharIsPad(s: string, c: char)
    requires OnlyChar(s, c)
    ensures s == Pad(c, |s|)
  {
    if s != [] {
      OnlyCharIsPad(s[1..], c);
    }
  }

  /** The length of the run of `c` that `s` starts with. */
  function LeadingRun(s: string, c: char): (n: nat)
    ensures n <= |s| && forall k :: 0 <= k < n ==> s[k] == c
    ensures n < |s| ==> s[n] != c
  {
    if |s| == 0 || s[0] != c then 0 else 1 + LeadingRun(s[1..], c)
  }

  /** The length of the run of `c` that `s` ends with. */
  function TrailingRun(s: string, c: char): (n: nat)
    ensures n <= |s| && forall k :: |s| - n <= k < |s| ==> s[k] == c
    ensures n < |s| ==> s[|s| - 1 - n] != c
  {
    if |s| == 0 || s[|s| - 1] != c then 0 else 1 + TrailingRun(s[..|s| - 1], c)
  }

  /** `StringUtils.stripStart(s, c)`: drops the leading run of `c`. */
  function StripStart(s: string, c: char): (r: string)
    ensures |r| <= |s|
    ensures r == [] || r[0] != c
  {
    s[LeadingRun(s, c)..]
  }

  /** `StringUtils.stripEnd(s, c)`: drops the trailing run of `c`. */
  function StripEnd(s: string, c: char): (r: string)
    ensures |r| <= |s|
    ensures r == [] || r[|r| - 1] != c
  {
    s[..|s| - TrailingRun(s, c)]
  }

  /** `StringUtils.strip(s, c)`: what is left of `s` once the runs of `c` at both ends
      are gone; it neither starts nor ends with `c`. */
  function Strip(s: string, c: char): (r: string)
    ensures |r| <= |s|
    ensures r == [] || (r[0] != c && r[|r| - 1] != c)
  {
    var t := StripStart(s, c);
    var r := StripEnd(t, c);
    assert r != [] ==> r[0] == t[0];
    r
  }

  /** `stripStart` removes nothing but padding. */
  lemma StripStartUnpads(s: string, c: char)
    ensures s == Pad(c, |s| - |StripStart(s, c)|) + StripStart(s, c)
  {
    var n := LeadingRun(s, c);
    assert s == s[..n] + s[n..];
    assert OnlyChar(s[..n], c);
    OnlyCharIsPad(s[..n], c);
  }

  /** `stripEnd` removes nothing but padding. */
  lemma StripEndUnpads(s: string, c: char)
    ensures s == StripEnd(s, c) + Pad(c, |s| - |StripEnd(s, c)|)
  {
    var n := TrailingRun(s, c);
    assert s == s[..|s| - n] + s[|s| - n..];
    assert OnlyChar(s[|s| - n..], c);
    OnlyCharIsPad(s[|s| - n..], c);
  }

  /** `s` is what `Strip` leaves, padded with `c` on both sides. */
  lemma StripUnpads(s: string, c: char)
    ensures exists i: nat, j: nat :: s == Pad(c, i) + Strip(s, c) + Pad(c, j)
  {
    var t := StripStart(s, c);
    var r := StripEnd(t, c);
    StripStartUnpads(s, c);
    StripEndUnpads(t, c);
    var i, j := |s| - |t|, |t| - |r|;
    AppendAssoc(Pad(c, i), r, Pad(c, j));
    assert Strip(s, c) == r;
    assert s == Pad(c, i) + r + Pad(c, j);
  }

  /** A padded string strips back to what was padded: `Strip` inverts padding with `c`
      on both sides for any text that does not itself start or end with `c`. */
  lemma StripPadded(r: string, c: char, i: nat, j: nat)
    requires r == [] || (r[0] != c && r[|r| - 1] != c)
    ensures Strip(Pad(c, i) + r + Pad(c, j), c) == r
  {
    if r == [] {
      StripOnlyPadding(c, i, j);
    } else {
      AppendAssoc(Pad(c, i), r, Pad(c, j));
      StripStartPadded(r + Pad(c, j), c, i);
      StripEndPadded(r, c, j);
    }
  }

  lemma StripOnlyPadding(c: char, i: nat, j: nat)
    ensures Strip(Pad(c, i) + [] + Pad(c, j), c) == []
  {
    AppendNil(Pad(c, i));
    PadAppend(c, i, j);
    StripPad(c, i + j);
  }

  /** Padding alone strips to nothing. */
  lemma StripPad(c: char, n: nat)
    ensures Strip(Pad(c, n), c) == []
  {
    var s := Pad(c, n);
    var k := LeadingRun(s, c);
    assert k == |s|;
  }

  lemma {:induction false} PadAppend(c: char, i: nat, j: nat)
    ensures Pad(c, i) + Pad(c, j) == Pad(c, i + j)
  {
    OnlyCharIsPad(Pad(c, i) + Pad(c, j), c);
  }

  lemma StripStartPadded(t: string, c: char, i: nat)
    requires t == [] || t[0] != c
    ensures StripStart(Pad(c, i) + t, c) == t
  {
    var s := Pad(c, i) + t;
    var n := LeadingRun(s, c);
    assert t != [] ==> s[i] == t[0];
  }

  lemma StripEndPadded(t: string, c: char, j: nat)
    requires t == [] || t[|t| - 1] != c
    ensures StripEnd(t + Pad(c, j), c) == t
  {
    var s := t + Pad(c, j);
    var n := TrailingRun(s, c);
    assert t != [] ==> s[|t| - 1] == t[|t| - 1];
    assert s[..|s| - n] == t;
  }

  /** `StringUtils.defaultIfBlank(s, d)`. */
  function DefaultIfBlank(s: string, d: string): string
  {
    if IsBlank(s) then d else s
  }

  /** `p` occurs in `s` starting at index `i`. */
  predicate OccursAt(s: string, p: string, i: int) {
    0 <= i && i + |p| <= |s| && s[i..i + |p|] == p
  }

  /** `String.contains`: `p` occurs in `s` as a contiguous block. */
  function Contains(s: string, p: string): (b: bool)
    ensures b <==> exists i :: OccursAt(s, p, i)
  {
    if |s| < |p| then false
    else if s[..|p|] == p then
      assert OccursAt(s, p, 0);
      true
    else
      var b := Contains(s[1..], p);
      assert b ==> exists i :: OccursAt(s, p, i) by {
        if b {
          var i :| OccursAt(s[1..], p, i);
          assert s[i + 1..i + 1 + |p|] == s[1..][i..i + |p|];
          assert OccursAt(s, p, i + 1);
        }
      }
      assert (exists i :: OccursAt(s, p, i)) ==> b by {
        if exists i :: OccursAt(s, p, i) {
          var i :| OccursAt(s, p, i);
          assert i != 0;
          assert s[1..][i - 1..i - 1 + |p|] == s[i..i + |p|];
          assert OccursAt(s[1..], p, i - 1);
        }
      }
      b
  }

  /** `Character.toTitleCase` on ASCII letters; other characters are kept. */
  function TitleCase(c: char): char {
    if 'a' <= c <= 'z' then (c as int - 'a' as int + 'A' as int) as char else c
  }

  /** `String.toLowerCase(Locale.ROOT)` on ASCII letters; other characters are kept. */
  function LowerCase(c: char): char {
    if 'A' <= c <= 'Z' then (c as int - 'A' as int + 'a' as int) as char else c
  }

  /** `StringUtils.capitalize`: the first character title-cased, the rest untouched. */
  function Capitalize(s: string): (r: string)
    ensures |r| == |s| && (s != [] ==> r[1..] == s[1..])
    ensures s != [] ==> r[0] == TitleCase(s[0])
  {
    if s == [] then s else [TitleCase(s[0])] + s[1..]
  }

  /** Lower-cases every character of `s` with the root locale. */
  function ToLowerRoot(s: string): (r: string)
    ensures |r| == |s|
    ensures forall k :: 0 <= k < |s| ==> r[k] == LowerCase(s[k])
  {
    seq(|s|, k requires 0 <= k < |s| => LowerCase(s[k]))
  }

  // ---------------------------------------------------------------------------
  // NumberUtils.toInt: Integer.parseInt(s, 10), with 0 for anything it rejects.

  const MinInt: int := -0x8000_0000
  const MaxInt: int := 0x7FFF_FFFF

  predicate IsDigit(c: char) { '0' <= c <= '9' }

  predicate AllDigits(s: string) {
    forall k :: 0 <= k < |s| ==> IsDigit(s[k])
  }

  /** The value of a string of decimal digits, most significant first. */
  function DigitsValue(s: string): (v: nat)
    requires AllDigits(s)
  {
    if s == [] then 0
    else DigitsValue(s[..|s| - 1]) * 10 + (s[|s| - 1] as int - '0' as int)
  }

  /** `Integer.parseInt(s, 10)`: an optional `+` or `-` followed by at least one decimal
      digit, whose value fits in 32 bits; `None` where Java throws NumberFormatException. */
  function ParseInt(s: string): (r: Option<int>)
    ensures r.Some? ==> MinInt <= r.value <= MaxInt
    ensures r.Some? ==> |s| > 0
    ensures s == [] ==> r == None
  {
    if s == [] then None
    else
      var negative := s[0] == '-';
      var digits := if s[0] == '-' || s[0] == '+' then s[1..] else s;
      if digits == [] || !AllDigits(digits) then None
      else
        var v: int := if negative then -(DigitsValue(digits) as int) else DigitsValue(digits);
        if MinInt <= v <= MaxInt then Some(v) else None
  }

  /** `NumberUtils.toInt(s)`: the parsed value, or 0 when the text is not a 32-bit
      decimal integer. */
  function ToInt(s: string): (n: int)
    ensures MinInt <= n <= MaxInt
    ensures ParseInt(s).Some? ==> n == ParseInt(s).value
    ensures ParseInt(s).None? ==> n == 0
  {
    match ParseInt(s)
    case Some(v) => v
    case None => 0
  }

  /** The decimal digits of `n`, as `Integer.toString` writes a non-negative number. */
  function DecimalString(n: nat): (s: string)
    ensures |s| > 0 && AllDigits(s)
  {
    if n < 10 then [('0' as int + n) as char]
    else DecimalString(n / 10) + [('0' as int + n % 10) as char]
  }

  /** Parsing the digits of a number gives the number back. */
  lemma {:induction false} DigitsValueOfDecimal(n: nat)
    ensures DigitsValue(DecimalString(n)) == n
  {
    var s := DecimalString(n);
    if n >= 10 {
      assert s[..|s| - 1] == DecimalString(n / 10);
      DigitsValueOfDecimal(n / 10);
    }
  }

  /** Round trip of the lenient parse: every status code that fits in an int reads back. */
  lemma ToIntOfDecimal(n: nat)
    requires n <= MaxInt
    ensures ToInt(DecimalString(n)) == n
  {
    DigitsValueOfDecimal(n);
    var s := DecimalString(n);
    assert IsDigit(s[0]);
  }

  /** A key with a character other than a digit past the optional sign is read as 0. */
  lemma ToIntOfNonNumeric(s: string, k: nat)
    requires k < |s| && !IsDigit(s[k])
    requires k == 0 ==> s[0] != '-' && s[0] != '+'
    ensures ToInt(s) == 0
  {
    var digits := if s[0] == '-' || s[0] == '+' then s[1..] else s;
    if s[0] == '-' || s[0] == '+' {
      assert digits[k - 1] == s[k];
    } else {
      assert digits[k] == s[k];
    }
  }
}

=== FILE: linked_maps.dfy ===
/**
 * `java.util.LinkedHashMap<String, V>` with insertion order: a sequence of key/value entries.
 * `Put` on a new key appends it, `Put` on a key already present replaces the value in
 * place, so a key keeps the position of its first insertion. `PutAll` is a series of
 * `Put`s in the entry order of its argument, and `Retain` is `keySet().retainAll(..)`.
 */
module LinkedMaps {
  import opened JavaText
  import opened Sequences

  /** The keys of `m` in iteration order. */
  function Keys<V>(m: seq<(string, V)>): (ks: seq<string>)
    ensures |ks| == |m|
    ensures forall i :: 0 <= i < |m| ==> ks[i] == m[i].0
  {
    seq(|m|, i requires 0 <= i < |m| => m[i].0)
  }

  predicate Distinct(ks: seq<string>) {
    forall i, j :: 0 <= i < j < |ks| ==> ks[i] != ks[j]
  }

  /** `Map.get`: the value stored under `k`, if any. */
  function Get<V>(m: seq<(string, V)>, k: string): (r: Option<V>)
    ensures r.Some? <==> k in Keys(m)
    ensures r.Some? ==> (k, r.value) in m
  {
    if k in Keys(m) then Some(m[IndexOf(Keys(m), k)].1) else None
  }

  /** `Map.put` with LinkedHashMap ordering. */
  function Put<V>(m: seq<(string, V)>, k: string, v: V): (r: seq<(string, V)>)
    ensures Keys(r) == if k in Keys(m) then Keys(m) else Keys(m) + [k]
    ensures Get(r, k) == Some(v)
    ensures forall k' :: k' != k ==> Get(r, k') == Get(m, k')
  {
    if k in Keys(m) then
      var i := IndexOf(Keys(m), k);
      var r := m[i := (k, v)];
      assert Keys(r) == Keys(m);
      r
    else
      AppendNewKey(m, k, v);
      m + [(k, v)]
  }

  /** Appending an entry under a new key leaves every other key where it was. */
  lemma AppendNewKey<V>(m: seq<(string, V)>, k: string, v: V)
    requires k !in Keys(m)
    ensures Keys(m + [(k, v)]) == Keys(m) + [k]
    ensures Get(m + [(k, v)], k) == Some(v)
    ensures forall k' :: k' != k ==> Get(m + [(k, v)], k') == Get(m, k')
  {
    var r := m + [(k, v)];
    assert Keys(r) == Keys(m) + [k];
    assert Keys(r)[..|m|] == Keys(m);
    forall k' | k' in Keys(m)
      ensures IndexOf(Keys(r), k') == IndexOf(Keys(m), k')
    {
      IndexOfPrefix(Keys(r), |m|, k');
    }
    IndexOfLast(Keys(r), k);
  }

  lemma IndexOfLast(ks: seq<string>, k: string)
    requires ks != [] && ks[|ks| - 1] == k && k !in ks[..|ks| - 1]
    ensures IndexOf(ks, k) == |ks| - 1
  {
  }

  /** `Map.putAll(es)`: every entry of `es` put in order. */
  function PutAll<V>(m: seq<(string, V)>, es: seq<(string, V)>): seq<(string, V)>
  {
    if es == [] then m
    else
      var last := es[|es| - 1];
      Put(PutAll(m, es[..|es| - 1]), last.0, last.1)
  }

  /** `Map.putAll`: one `put` per entry of `es`, in iteration order. */
  method PutEach<V>(m: seq<(string, V)>, es: seq<(string, V)>) returns (r: seq<(string, V)>)
    ensures r == PutAll(m, es)
  {
    r := m;
    var j := 0;
    while j < |es|
      invariant 0 <= j <= |es|
      invariant r == PutAll(m, es[..j])
    {
      PrefixStep(es, j);
      r := Put(r, es[j].0, es[j].1);
      j := j + 1;
    }
    PrefixFull(es);
  }

  /** The keys of `ks` in the order of their first occurrence. */
  function Dedup(ks: seq<string>): (r: seq<string>)
    ensures forall x :: x in r <==> x in ks
    ensures Distinct(r)
  {
    if ks == [] then []
    else
      var d := Dedup(ks[..|ks| - 1]);
      var x := ks[|ks| - 1];
      assert ks == ks[..|ks| - 1] + [x];
      if x in d then d else d + [x]
  }

  /** The value of the last entry of `es` for key `k`: the one `putAll` leaves behind. */
  function LastValue<V>(es: seq<(string, V)>, k: string): (r: Option<V>)
    ensures r.Some? <==> k in Keys(es)
  {
    if es == [] then None
    else if es[|es| - 1].0 == k then Some(es[|es| - 1].1)
    else
      assert Keys(es) == Keys(es[..|es| - 1]) + [es[|es| - 1].0];
      LastValue(es[..|es| - 1], k)
  }

  /** A sequence without repetitions is its own order of first occurrence. */
  lemma {:induction false} DedupOfDistinct(ks: seq<string>)
    requires Distinct(ks)
    ensures Dedup(ks) == ks
  {
    if ks != [] {
      var pre := ks[..|ks| - 1];
      DedupOfDistinct(pre);
      assert ks[|ks| - 1] !in pre;
      SplitLast(ks);
    }
  }

  /** Removing repetitions from a prefix first changes nothing. */
  lemma {:induction false} DedupAppendDedup(a: seq<string>, b: seq<string>)
    ensures Dedup(Dedup(a) + b) == Dedup(a + b)
  {
    if b == [] {
      AppendNil(Dedup(a));
      AppendNil(a);
      DedupOfDistinct(Dedup(a));
    } else {
      var pre, x := b[..|b| - 1], b[|b| - 1];
      DedupAppendDedup(a, pre);
      SplitLast(b);
      AppendAssoc(Dedup(a), pre, [x]);
      AppendAssoc(a, pre, [x]);
      DedupSnoc(Dedup(a) + pre, x);
      DedupSnoc(a + pre, x);
    }
  }

  lemma KeysSnoc<V>(es: seq<(string, V)>)
    requires es != []
    ensures Keys(es) == Keys(es[..|es| - 1]) + [es[|es| - 1].0]
  {
  }

  /** The keys after `putAll` are the old keys followed by the new ones, each in the
      position of its first insertion. */
  lemma {:induction false} KeysPutAll<V>(m: seq<(string, V)>, es: seq<(string, V)>)
    requires Distinct(Keys(m))
    ensures Keys(PutAll(m, es)) == Dedup(Keys(m) + Keys(es))
  {
    if es == [] {
      assert Keys(m) + Keys(es) == Keys(m);
      DedupOfDistinct(Keys(m));
    } else {
      var pre, last := es[..|es| - 1], es[|es| - 1];
      KeysPutAll(m, pre);
      KeysSnoc(es);
      DedupSnoc(Keys(m) + Keys(pre), last.0);
      AppendAssoc(Keys(m), Keys(pre), [last.0]);
    }
  }

  lemma DedupSnoc(ks: seq<string>, x: string)
    ensures Dedup(ks + [x]) == if x in Dedup(ks) then Dedup(ks) else Dedup(ks) + [x]
  {
    assert (ks + [x])[..|ks|] == ks;
  }

  /** A `put` extends a map whose keys are the first appearances of `ks + names` to
      one whose keys are the first appearances of `ks + names + [k]`. */
  lemma PutKeysDedup<V>(m: seq<(string, V)>, ks: seq<string>, names: seq<string>, k: string, v: V)
    requires Keys(m) == Dedup(ks + names)
    ensures Keys(Put(m, k, v)) == Dedup(ks + (names + [k]))
  {
    AppendAssoc(ks, names, [k]);
    DedupSnoc(ks + names, k);
  }

  /** After `putAll`, a key holds the value of the last entry of `es` that names it, and
      otherwise what it held before. */
  lemma {:induction false} GetPutAll<V>(m: seq<(string, V)>, es: seq<(string, V)>, k: string)
    ensures Get(PutAll(m, es), k) == if k in Keys(es) then LastValue(es, k) else Get(m, k)
  {
    if es != [] {
      var pre, last := es[..|es| - 1], es[|es| - 1];
      assert PutAll(m, es) == Put(PutAll(m, pre), last.0, last.1);
      KeysSnoc(es);
      if k == last.0 {
        assert LastValue(es, k) == Some(last.1);
      } else {
        GetPutAll(m, pre, k);
        assert LastValue(es, k) == LastValue(pre, k);
        assert k in Keys(es) <==> k in Keys(pre);
      }
    }
  }

  /** The keys of a map built by `putAll` are pairwise distinct. */
  lemma PutAllDistinct<V>(m: seq<(string, V)>, es: seq<(string, V)>)
    requires Distinct(Keys(m))
    ensures Distinct(Keys(PutAll(m, es)))
  {
    KeysPutAll(m, es);
  }

  /** `keySet().retainAll(names)`: the entries whose key is in `names`, in map order. */
  function Retain<V(!new)>(m: seq<(string, V)>, names: set<string>): (r: seq<(string, V)>)
    ensures forall e :: e in r <==> e in m && e.0 in names
  {
    if m == [] then []
    else
      var pre := Retain(m[..|m| - 1], names);
      var last := m[|m| - 1];
      assert m == m[..|m| - 1] + [last];
      if last.0 in names then pre + [last] else pre
  }

  /** `retainAll` keeps exactly the keys of `m` that are in `names`. */
  lemma RetainSelects<V(!new)>(m: seq<(string, V)>, names: set<string>, k: string)
    ensures k in Keys(Retain(m, names)) <==> k in names && k in Keys(m)
  {
    var r := Retain(m, names);
    if k in Keys(r) {
      var i :| 0 <= i < |r| && Keys(r)[i] == k;
      assert r[i] in m;
      var p :| 0 <= p < |m| && m[p] == r[i];
      assert Keys(m)[p] == k;
    }
    if k in names && k in Keys(m) {
      var p :| 0 <= p < |m| && Keys(m)[p] == k;
      assert m[p] in r;
      var i :| 0 <= i < |r| && r[i] == m[p];
      assert Keys(r)[i] == k;
    }
  }

  /** The position of the first occurrence of `k`. */
  function IndexOf(ks: seq<string>, k: string): (i: nat)
    requires k in ks
    ensures i < |ks| && ks[i] == k && k !in ks[..i]
  {
    if ks[0] == k then 0
    else
      var i := IndexOf(ks[1..], k) + 1;
      assert ks[..i] == [ks[0]] + ks[1..][..i - 1];
      i
  }

  lemma IndexOfPrefix(ks: seq<string>, n: nat, k: string)
    requires n <= |ks| && k in ks[..n]
    ensures IndexOf(ks, k) == IndexOf(ks[..n], k)
  {
    var i, j := IndexOf(ks, k), IndexOf(ks[..n], k);
    assert ks[..n][..j] == ks[..j];
  }

  /** `x` and `y` both occur in `ks`, and `x` first occurs before `y` does. */
  predicate Precedes(ks: seq<string>, x: string, y: string) {
    x in ks && y in ks && IndexOf(ks, x) < IndexOf(ks, y)
  }

  /** `retainAll` keeps the map's own order: entries come out in the order their keys
      have in `m`. */
  lemma {:induction false} RetainKeepsOrder<V(!new)>(m: seq<(string, V)>, names: set<string>)
    requires Distinct(Keys(m))
    ensures forall i, j :: 0 <= i < j < |Retain(m, names)| ==>
      Precedes(Keys(m), Retain(m, names)[i].0, Retain(m, names)[j].0)
  {
    if m != [] {
      var pre := m[..|m| - 1];
      assert Keys(pre) == Keys(m)[..|m| - 1];
      RetainKeepsOrder(pre, names);
      RetainSnocKeepsOrder(m, names);
    }
  }

  lemma RetainSnocKeepsOrder<V(!new)>(m: seq<(string, V)>, names: set<string>)
    requires m != [] && Distinct(Keys(m))
    requires var rp := Retain(m[..|m| - 1], names);
      forall i, j :: 0 <= i < j < |rp| ==> Precedes(Keys(m[..|m| - 1]), rp[i].0, rp[j].0)
    ensures forall i, j :: 0 <= i < j < |Retain(m, names)| ==>
      Precedes(Keys(m), Retain(m, names)[i].0, Retain(m, names)[j].0)
  {
    var pre, last := m[..|m| - 1], m[|m| - 1];
    var ks := Keys(m);
    var rp := Retain(pre, names);
    forall i | 0 <= i < |rp|
      ensures rp[i].0 in ks && IndexOf(ks, rp[i].0) == IndexOf(Keys(pre), rp[i].0) < |m| - 1
    {
      RetainedFromPrefix(m, names, i);
    }
    assert IndexOf(ks, last.0) == |m| - 1;
    AppendKeepsOrder(ks, rp, last);
  }

  /** Appending an entry whose key comes after every key of `rp` keeps `rp` ordered. */
  lemma AppendKeepsOrder<V>(ks: seq<string>, rp: seq<(string, V)>, last: (string, V))
    requires forall i, j :: 0 <= i < j < |rp| ==> Precedes(ks, rp[i].0, rp[j].0)
    requires last.0 in ks
    requires forall i :: 0 <= i < |rp| ==> rp[i].0 in ks && IndexOf(ks, rp[i].0) < IndexOf(ks, last.0)
    ensures forall i, j :: 0 <= i < j < |rp + [last]| ==> Precedes(ks, (rp + [last])[i].0, (rp + [last])[j].0)
  {
    var r := rp + [last];
    forall i, j | 0 <= i < j < |r|
      ensures Precedes(ks, r[i].0, r[j].0)
    {
      assert r[i] == rp[i];
      if j < |rp| {
        assert r[j] == rp[j];
      }
    }
  }

  /** An entry retained from all but the last entry of `m` keeps its position in `m`. */
  lemma RetainedFromPrefix<V(!new)>(m: seq<(string, V)>, names: set<string>, i: nat)
    requires m != [] && Distinct(Keys(m))
    requires i < |Retain(m[..|m| - 1], names)|
    ensures var pre := m[..|m| - 1]; var k := Retain(pre, names)[i].0;
      k in Keys(pre) && IndexOf(Keys(m), k) == IndexOf(Keys(pre), k) < |m| - 1
  {
    var pre := m[..|m| - 1];
    var e := Retain(pre, names)[i];
    assert e in pre;
    var p :| 0 <= p < |pre| && pre[p] == e;
    assert Keys(pre)[p] == e.0;
    assert Keys(pre) == Keys(m)[..|m| - 1];
    IndexOfPrefix(Keys(m), |m| - 1, e.0);
  }
}

=== FILE: model.dfy ===
/**
 * The entities the generators read (the parsed RAML description) and the artefacts
 * they emit (method declarations, response classes, builder methods, statements),
 * plus the collaborators whose code is not part of this model: the naming rules of
 * `Names`, the type lookups of `Types` and `context`, and the parameter helpers of
 * `AbstractGenerator`. Those collaborators are fields of function type, so every
 * property proved here holds whatever they compute.
 */
module Model {
  import opened JavaText

  // ---------------------------------------------------------------------------
  // The parsed RAML description (read only).

  /** `org.raml.model.ActionType`. */
  datatype ActionType = GET | POST | PUT | DELETE | HEAD | PATCH | OPTIONS | TRACE | CONNECT
  {
    /** `name()` (and `toString()`) of the enum constant. */
    function Name(): string {
      match this
      case GET => "GET"
      case POST => "POST"
      case PUT => "PUT"
      case DELETE => "DELETE"
      case HEAD => "HEAD"
      case PATCH => "PATCH"
      case OPTIONS => "OPTIONS"
      case TRACE => "TRACE"
      case CONNECT => "CONNECT"
    }
  }

  /** A body variant: the media type string, its example and its schema reference. */
  datatype MimeType = MimeType(mediaType: string, example: string, schema: string)

  /** A declared header; `repeat` is RAML's `repeat: true`. */
  datatype Header = Header(repeat: bool, description: string, example: string)

  /** A declared response: `body` holds the values of the body map in declaration
      order (empty when the response has no body) and `headers` the header map. */
  datatype Response = Response(description: string, body: seq<MimeType>, headers: seq<(string, Header)>)
  {
    /** `Response.hasBody()`. */
    predicate HasBody() { |body| > 0 }
  }

  /** A resource-type or trait declaration; its content only travels to the template
      parameter class collaborator. */
  datatype Template = Template(definition: string)

  /** The part of a resource the generators read: `resourceType` is `getType()`
      (absent when none is applied) and `traits` is `getIs()`. */
  datatype Resource = Resource(relativeUri: string, description: string,
                               resourceType: Option<string>, traits: seq<string>)

  /** An action; `resource` is its owning resource, `traits` its own `getIs()`,
      `responses` the response map keyed by status-code text in declaration order. */
  datatype Action = Action(verb: ActionType, resource: Resource, traits: seq<string>,
                           responses: seq<(string, Response)>)

  /** The template registries of the description: each is a list of maps, as the
      parser returns them. */
  datatype Raml = Raml(resourceTypes: seq<seq<(string, Template)>>,
                       traits: seq<seq<(string, Template)>>)

  /** Generator configuration; an absent async trait is the empty string. */
  datatype Configuration = Configuration(basePackageName: string,
                                         asyncResourceTrait: string,
                                         methodThrowException: Option<string>,
                                         emptyResponseReturnVoid: bool)

  // ---------------------------------------------------------------------------
  // Emitted artefacts.

  /** A Java type reference: `void`, a primitive, or a class that may be
      parameterised (`List<Foo>`). */
  datatype JType = VoidType | PrimitiveType(name: string) | ClassType(name: string, parameterized: bool)
  {
    /** `JType.name()`. */
    function Name(): string {
      match this
      case VoidType => "void"
      case PrimitiveType(n) => n
      case ClassType(n, _) => n
    }
  }

  /** Which statement of the generators produced a parameter. Parameters returned by
      the collaborators carry whatever role those give them. */
  datatype ParamRole =
    | TemplateParameter
    | ActionParameter
    | AsyncResponse
    | ResponseHeader(headerName: string)
    | FreeFormHeaders
    | ResponseEntity

  datatype Param = Param(ptype: JType, name: string, role: ParamRole, annotations: seq<string>)

  /** A value passed to `ResponseBuilder.header(name, value)`. */
  datatype HeaderValue = Literal(text: string) | Ref(variable: string)

  /** One link of the builder expression `Response.status(..).header(..)...`. */
  datatype BuilderCall = Status(code: int) | SetHeader(name: string, value: HeaderValue)

  /** The statements of a builder method body, in emission order. */
  datatype Stmt =
    | DeclareBuilder(chain: seq<BuilderCall>)                         // ResponseBuilder responseBuilder = <chain>;
    | HeadersCall(argument: string)                                  // headers(<argument>, responseBuilder);
    | EntityCall(argument: string)                                   // responseBuilder.entity(<argument>);
    | RepeatLoop(headerName: string, argument: string, elementType: JType) // for (T h : <argument>) responseBuilder.header(<headerName>, h);
    | ReturnWrapper(className: string)                               // return new <className>(responseBuilder.build());

  /** A static factory method of a response class. */
  datatype BuilderMethod = BuilderMethod(name: string, status: int, mime: Option<MimeType>,
                                         params: seq<Param>, body: seq<Stmt>)

  /** The `<MethodName>Response` class nested in a resource interface. */
  datatype ResponseClass = ResponseClass(name: string, superType: JType, builders: seq<BuilderMethod>)

  /** A resource method declaration of the service interface. */
  datatype MethodDecl = MethodDecl(name: string, returnType: JType, throws: seq<string>,
                                   httpMethod: string, consumes: Option<MimeType>,
                                   produces: seq<MimeType>, params: seq<Param>)

  /** One call the (unmodelled) resource traversal makes to `addResourceMethod`. */
  datatype MethodRequest = MethodRequest(action: Action, bodyMime: Option<MimeType>,
                                         addBodyMimeTypeInMethodName: bool,
                                         uniqueResponseMimeTypes: seq<MimeType>)

  /** An invocation of a registered `GeneratorExtension`. */
  datatype HookEvent =
    | InterfaceCreated(extension: string, interfaceName: string, resource: Resource)
    | MethodAdded(extension: string, declaration: MethodDecl, action: Action,
                  bodyMime: Option<MimeType>, responseMimes: seq<MimeType>)

  /** `_class` on a class that already holds a nested class of that name throws. */
  datatype GenError = ClassAlreadyExists(name: string)

  /** The outcome of a generator step that may throw. */
  datatype Result<T> = Success(value: T) | Failure(error: GenError)

  // ---------------------------------------------------------------------------
  // Collaborators whose code is not part of this model.

  /** `Names.*` and the constants the generators use. */
  datatype Naming = Naming(
    resourceInterfaceName: Resource -> string,
    resourceMethodName: (Action, Option<MimeType>) -> string,
    variableName: string -> string,
    responseMethodName: (int, Option<MimeType>) -> string,
    genericPayloadArgumentName: string,
    multipleResponseHeadersArgumentName: string,
    headerWildcardSymbol: string)

  /** `Types.*`, `context.*` and the parameter helpers of `AbstractGenerator`. */
  datatype TypeContext = TypeContext(
    templateParameterClass: (string, Template, bool) -> JType,
    pathParameters: Action -> seq<Param>,
    headerParameters: Action -> seq<Param>,
    queryParameters: Action -> seq<Param>,
    bodyParameters: Option<MimeType> -> seq<Param>,
    headerParameterType: (Header, string) -> JType,
    headerJavaType: Header -> JType,
    responseEntityClass: MimeType -> JType,
    responseWrapperType: JType,
    uniqueMethodName: (seq<string>, string) -> string,
    headerDescription: Header -> string)
}

=== FILE: response_builders.dfy ===
/**
 * The static builder methods of a `<MethodName>Response` class
 * (`Generator.createResponseBuilderInResourceMethodReturnType`, both overloads).
 *
 * Each declared response header falls into one of three groups: a header whose name
 * contains the wildcard symbol only adds to the description of the free-form header
 * map; any other header becomes a parameter and, unless it repeats, a `header(..)` link
 * of the builder expression; a repeated one becomes a for-each loop after the entity.
 */
module ResponseBuilders {
  import opened JavaText
  import opened Model

  type Headers = seq<(string, Header)>

  /** `headerName.contains(RESPONSE_HEADER_WILDCARD_SYMBOL)`. */
  predicate IsWildcard(naming: Naming, name: string) {
    Contains(name, naming.headerWildcardSymbol)
  }

  /** The header groups the builder routine tells apart. `LoopedAsWritten` is the
      group the second header loop actually visits (see `RepeatLoopsAsWritten`). */
  datatype HeaderGroup = Declared | Chained | Looped | LoopedAsWritten | FreeForm

  predicate InGroup(naming: Naming, g: HeaderGroup, name: string, h: Header) {
    match g
    case Declared => !IsWildcard(naming, name)
    case Chained => !IsWildcard(naming, name) && !h.repeat
    case Looped => !IsWildcard(naming, name) && h.repeat
    case LoopedAsWritten => h.repeat
    case FreeForm => IsWildcard(naming, name)
  }

  /** The headers of group `g`, in declaration order. */
  function Select(naming: Naming, g: HeaderGroup, hs: Headers): (r: Headers)
    ensures |r| <= |hs|
  {
    if hs == [] then []
    else
      var last := hs[|hs| - 1];
      Select(naming, g, hs[..|hs| - 1]) + (if InGroup(naming, g, last.0, last.1) then [last] else [])
  }

  /** A header is selected exactly when it is declared and belongs to the group. */
  lemma {:induction false} SelectMembers(naming: Naming, g: HeaderGroup, hs: Headers)
    ensures forall e :: e in Select(naming, g, hs) <==> e in hs && InGroup(naming, g, e.0, e.1)
  {
    if hs != [] {
      var last := hs[|hs| - 1];
      SelectMembers(naming, g, hs[..|hs| - 1]);
      assert hs == hs[..|hs| - 1] + [last];
    }
  }

  lemma SelectSnoc(naming: Naming, g: HeaderGroup, hs: Headers, i: nat)
    requires i < |hs|
    ensures Select(naming, g, hs[..i + 1]) ==
      Select(naming, g, hs[..i]) + (if InGroup(naming, g, hs[i].0, hs[i].1) then [hs[i]] else [])
  {
    assert hs[..i + 1][..i] == hs[..i];
  }

  lemma HeaderParamsSnoc(naming: Naming, ctx: TypeContext, hs: Headers, i: nat)
    requires i < |hs|
    ensures HeaderParams(naming, ctx, hs[..i + 1]) == HeaderParams(naming, ctx, hs[..i]) +
      (if !IsWildcard(naming, hs[i].0) then [HeaderParam(naming, ctx, hs[i])] else [])
  {
    SelectSnoc(naming, Declared, hs, i);
  }

  lemma ChainLinksSnoc(naming: Naming, hs: Headers, i: nat)
    requires i < |hs|
    ensures ChainLinks(naming, hs[..i + 1]) == ChainLinks(naming, hs[..i]) +
      (if !IsWildcard(naming, hs[i].0) && !hs[i].1.repeat then [ChainLink(naming, hs[i])] else [])
  {
    SelectSnoc(naming, Chained, hs, i);
  }

  lemma LoopsSnoc(naming: Naming, ctx: TypeContext, g: HeaderGroup, hs: Headers, i: nat)
    requires i < |hs|
    ensures LoopsOf(naming, ctx, g, hs[..i + 1]) == LoopsOf(naming, ctx, g, hs[..i]) +
      (if InGroup(naming, g, hs[i].0, hs[i].1) then [Loop(naming, ctx, hs[i])] else [])
  {
    SelectSnoc(naming, g, hs, i);
  }

  /** Selection keeps declaration order: two selected headers appear in `hs` in the
      same order. */
  lemma {:induction false} SelectKeepsOrder(naming: Naming, g: HeaderGroup, hs: Headers, i: nat, j: nat)
    requires i < j < |Select(naming, g, hs)|
    ensures exists p, q :: 0 <= p < q < |hs| && hs[p] == Select(naming, g, hs)[i] && hs[q] == Select(naming, g, hs)[j]
  {
    var pre := hs[..|hs| - 1];
    var r, rp := Select(naming, g, hs), Select(naming, g, pre);
    SelectMembers(naming, g, pre);
    if j < |rp| {
      SelectKeepsOrder(naming, g, pre, i, j);
      var p, q :| 0 <= p < q < |pre| && pre[p] == rp[i] && pre[q] == rp[j];
      assert hs[p] == r[i] && hs[q] == r[j];
    } else {
      assert r[i] == rp[i] && rp[i] in pre;
      var p :| 0 <= p < |pre| && pre[p] == rp[i];
      assert hs[p] == r[i] && hs[|hs| - 1] == r[j];
    }
  }

  // ---------------------------------------------------------------------------
  // What each group contributes.

  /** The parameter of a declared header: `types.buildParameterType(header, argumentName)`
      named `buildVariableName(headerName)`. */
  function HeaderParam(naming: Naming, ctx: TypeContext, e: (string, Header)): Param {
    var v := naming.variableName(e.0);
    Param(ctx.headerParameterType(e.1, v), v, ResponseHeader(e.0), [])
  }

  function HeaderParams(naming: Naming, ctx: TypeContext, hs: Headers): (ps: seq<Param>)
    ensures |ps| == |Select(naming, Declared, hs)|
    ensures forall i :: 0 <= i < |ps| ==> ps[i] == HeaderParam(naming, ctx, Select(naming, Declared, hs)[i])
  {
    var sel := Select(naming, Declared, hs);
    seq(|sel|, i requires 0 <= i < |sel| => HeaderParam(naming, ctx, sel[i]))
  }

  /** `.header(headerName, argumentName)` appended to the builder expression. */
  function ChainLink(naming: Naming, e: (string, Header)): BuilderCall {
    SetHeader(e.0, Ref(naming.variableName(e.0)))
  }

  function ChainLinks(naming: Naming, hs: Headers): (cs: seq<BuilderCall>)
    ensures |cs| == |Select(naming, Chained, hs)|
    ensures forall i :: 0 <= i < |cs| ==> cs[i] == ChainLink(naming, Select(naming, Chained, hs)[i])
  {
    var sel := Select(naming, Chained, hs);
    seq(|sel|, i requires 0 <= i < |sel| => ChainLink(naming, sel[i]))
  }

  /** `for (T h : argumentName) responseBuilder.header(headerName, h);` with `T` the
      Java type of the header. */
  function Loop(naming: Naming, ctx: TypeContext, e: (string, Header)): Stmt {
    RepeatLoop(e.0, naming.variableName(e.0), ctx.headerJavaType(e.1))
  }

  function LoopsOf(naming: Naming, ctx: TypeContext, g: HeaderGroup, hs: Headers): (ls: seq<Stmt>)
    ensures |ls| == |Select(naming, g, hs)|
    ensures forall i :: 0 <= i < |ls| ==> ls[i] == Loop(naming, ctx, Select(naming, g, hs)[i])
  {
    var sel := Select(naming, g, hs);
    seq(|sel|, i requires 0 <= i < |sel| => Loop(naming, ctx, sel[i]))
  }

  /** The for-each loops of the builder: one per repeated header that has a parameter. */
  function RepeatLoops(naming: Naming, ctx: TypeContext, hs: Headers): seq<Stmt>
  {
    LoopsOf(naming, ctx, Looped, hs)
  }

  /** The for-each loops the second header loop of the routine emits: one per repeated
      header, including the wildcard ones the first loop gave no parameter. */
  function RepeatLoopsAsWritten(naming: Naming, ctx: TypeContext, hs: Headers): seq<Stmt>
  {
    LoopsOf(naming, ctx, LoopedAsWritten, hs)
  }

  /** The corrected loop differs from the loop as written only on repeated wildcard
      headers: without one, both emit the same for-each loops. */
  lemma {:induction false} LoopsAgreeWithoutRepeatedWildcards(naming: Naming, ctx: TypeContext, hs: Headers)
    requires forall k :: 0 <= k < |hs| ==> !(IsWildcard(naming, hs[k].0) && hs[k].1.repeat)
    ensures RepeatLoops(naming, ctx, hs) == RepeatLoopsAsWritten(naming, ctx, hs)
  {
    SameSelection(naming, hs);
  }

  lemma {:induction false} SameSelection(naming: Naming, hs: Headers)
    requires forall k :: 0 <= k < |hs| ==> !(IsWildcard(naming, hs[k].0) && hs[k].1.repeat)
    ensures Select(naming, Looped, hs) == Select(naming, LoopedAsWritten, hs)
  {
    if hs != [] {
      var pre := hs[..|hs| - 1];
      assert forall k :: 0 <= k < |pre| ==> pre[k] == hs[k];
      SameSelection(naming, pre);
    }
  }

  /** The free-form headers description accumulated in the `StringBuilder`: what
      `appendParameterJavadocDescription` appends for each wildcard header, in order. */
  function FreeFormDescription(naming: Naming, ctx: TypeContext, hs: Headers): string
  {
    if hs == [] then ""
    else
      var last := hs[|hs| - 1];
      FreeFormDescription(naming, ctx, hs[..|hs| - 1]) +
        (if IsWildcard(naming, last.0) then ctx.headerDescription(last.1) else "")
  }

  lemma FreeFormSnoc(naming: Naming, ctx: TypeContext, hs: Headers, i: nat)
    requires i < |hs|
    ensures FreeFormDescription(naming, ctx, hs[..i + 1]) == FreeFormDescription(naming, ctx, hs[..i]) +
      (if IsWildcard(naming, hs[i].0) then ctx.headerDescription(hs[i].1) else "")
  {
    assert hs[..i + 1][..i] == hs[..i];
  }

  /** The free-form description is empty exactly when every wildcard header
      contributes an empty description; in particular it is empty without wildcard
      headers. */
  lemma {:induction false} FreeFormDescriptionEmpty(naming: Naming, ctx: TypeContext, hs: Headers)
    ensures |FreeFormDescription(naming, ctx, hs)| == 0 <==>
      forall e :: e in hs && IsWildcard(naming, e.0) ==> |ctx.headerDescription(e.1)| == 0
  {
    if hs != [] {
      var pre := hs[..|hs| - 1];
      FreeFormDescriptionEmpty(naming, ctx, pre);
      assert hs == pre + [hs[|hs| - 1]];
    }
  }

  // ---------------------------------------------------------------------------
  // One builder method.

  const ContentType: string := "Content-Type"
  const HeadersMapType: JType := ClassType("java.util.Map<java.lang.String,java.util.List<java.lang.Object>>", true)

  /** `Response.status(statusCode)`, then the Content-Type header when there is a mime
      type, then one link per non-repeated, non-wildcard header. */
  function Chain(naming: Naming, statusCode: int, mime: Option<MimeType>, hs: Headers): seq<BuilderCall>
  {
    [Status(statusCode)] + ChainStart(mime) + ChainLinks(naming, hs)
  }

  function ChainStart(mime: Option<MimeType>): seq<BuilderCall> {
    if mime.Some? then [SetHeader(ContentType, Literal(mime.value.mediaType))] else []
  }

  /** The `Map<String, List<Object>>` parameter of the free-form headers. */
  function FreeFormParam(naming: Naming): Param {
    Param(HeadersMapType, naming.multipleResponseHeadersArgumentName, FreeFormHeaders, [])
  }

  /** The entity parameter of a builder for a body variant. */
  function EntityParam(naming: Naming, ctx: TypeContext, mime: MimeType): Param {
    Param(ctx.responseEntityClass(mime), naming.genericPayloadArgumentName, ResponseEntity, [])
  }

  /** The builder method for status `statusCode` and body variant `mime` (none for a
      response without a body) of the response class `className`. */
  function BuilderMethodFor(naming: Naming, ctx: TypeContext, className: string, statusCode: int,
                            response: Response, mime: Option<MimeType>): BuilderMethod
  {
    var hs := response.headers;
    var freeForm := |FreeFormDescription(naming, ctx, hs)| > 0;
    BuilderMethod(
      naming.responseMethodName(statusCode, mime),
      statusCode,
      mime,
      HeaderParams(naming, ctx, hs)
        + (if freeForm then [FreeFormParam(naming)] else [])
        + (if mime.Some? then [EntityParam(naming, ctx, mime.value)] else []),
      [DeclareBuilder(Chain(naming, statusCode, mime, hs))]
        + (if freeForm then [HeadersCall(naming.multipleResponseHeadersArgumentName)] else [])
        + (if mime.Some? then [EntityCall(naming.genericPayloadArgumentName)] else [])
        + RepeatLoops(naming, ctx, hs)
        + [ReturnWrapper(className)])
  }

  /** `createResponseBuilderInResourceMethodReturnType(responseClass, statusCode,
      response, responseMimeType)`, with the second header loop skipping wildcard
      headers as the first one does. */
  method CreateResponseBuilder(naming: Naming, ctx: TypeContext, className: string, statusCode: int,
                               response: Response, mime: Option<MimeType>)
    returns (builder: BuilderMethod)
    ensures builder == BuilderMethodFor(naming, ctx, className, statusCode, response, mime)
  {
    var hs := response.headers;
    var name := naming.responseMethodName(statusCode, mime);
    var builderArgument := [Status(statusCode)];
    if mime.Some? {
      builderArgument := builderArgument + [SetHeader(ContentType, Literal(mime.value.mediaType))];
    }
    var links, params, freeFormHeadersDescription := DeclareHeaders(naming, ctx, hs);
    builderArgument := builderArgument + links;
    assert builderArgument == Chain(naming, statusCode, mime, hs);
    var freeForm := |freeFormHeadersDescription| > 0;
    var body := [DeclareBuilder(builderArgument)];
    if freeForm {
      body := body + [HeadersCall(naming.multipleResponseHeadersArgumentName)];
      params := params + [FreeFormParam(naming)];
    }
    if mime.Some? {
      body := body + [EntityCall(naming.genericPayloadArgumentName)];
      params := params + [EntityParam(naming, ctx, mime.value)];
    }
    assert params == HeaderParams(naming, ctx, hs)
      + (if freeForm then [FreeFormParam(naming)] else [])
      + (if mime.Some? then [EntityParam(naming, ctx, mime.value)] else []);
    assert body == [DeclareBuilder(builderArgument)]
      + (if freeForm then [HeadersCall(naming.multipleResponseHeadersArgumentName)] else [])
      + (if mime.Some? then [EntityCall(naming.genericPayloadArgumentName)] else []);
    var loops := AddRepeatLoops(naming, ctx, hs);
    body := body + loops + [ReturnWrapper(className)];
    builder := BuilderMethod(name, statusCode, mime, params, body);
  }

  /** The first header loop: wildcard headers only add to the free-form description;
      every other header gets a parameter, and a `header(..)` link when it does not
      repeat. */
  method DeclareHeaders(naming: Naming, ctx: TypeContext, hs: Headers)
    returns (links: seq<BuilderCall>, params: seq<Param>, freeFormHeadersDescription: string)
    ensures links == ChainLinks(naming, hs)
    ensures params == HeaderParams(naming, ctx, hs)
    ensures freeFormHeadersDescription == FreeFormDescription(naming, ctx, hs)
  {
    links, params, freeFormHeadersDescription := [], [], "";
    var i := 0;
    while i < |hs|
      invariant 0 <= i <= |hs|
      invariant links == ChainLinks(naming, hs[..i])
      invariant params == HeaderParams(naming, ctx, hs[..i])
      invariant freeFormHeadersDescription == FreeFormDescription(naming, ctx, hs[..i])
    {
      var (headerName, header) := hs[i];
      HeaderParamsSnoc(naming, ctx, hs, i);
      ChainLinksSnoc(naming, hs, i);
      FreeFormSnoc(naming, ctx, hs, i);
      if IsWildcard(naming, headerName) {
        freeFormHeadersDescription := freeFormHeadersDescription + ctx.headerDescription(header);
      } else {
        var argumentName := naming.variableName(headerName);
        if !header.repeat {
          links := links + [SetHeader(headerName, Ref(argumentName))];
        }
        params := params + [Param(ctx.headerParameterType(header, argumentName), argumentName,
                                  ResponseHeader(headerName), [])];
      }
      i := i + 1;
    }
    assert hs[..i] == hs;
  }

  /** The second header loop: one for-each loop per repeated header that has a
      parameter. */
  method AddRepeatLoops(naming: Naming, ctx: TypeContext, hs: Headers) returns (loops: seq<Stmt>)
    ensures loops == RepeatLoops(naming, ctx, hs)
  {
    loops := [];
    var j := 0;
    while j < |hs|
      invariant 0 <= j <= |hs|
      invariant loops == RepeatLoops(naming, ctx, hs[..j])
    {
      var (headerName, header) := hs[j];
      LoopsSnoc(naming, ctx, Looped, hs, j);
      if !IsWildcard(naming, headerName) && header.repeat {
        loops := loops + [RepeatLoop(headerName, naming.variableName(headerName), ctx.headerJavaType(header))];
      }
      j := j + 1;
    }
    assert hs[..j] == hs;
  }

  // ---------------------------------------------------------------------------
  // Properties of one builder method.

  /** A header has a parameter exactly when its name has no wildcard, repeated or not. */
  lemma HeaderParameterIff(naming: Naming, ctx: TypeContext, hs: Headers, name: string)
    ensures (exists i :: 0 <= i < |HeaderParams(naming, ctx, hs)| && HeaderParams(naming, ctx, hs)[i].role == ResponseHeader(name))
      <==> (exists h :: (name, h) in hs) && !IsWildcard(naming, name)
  {
    var sel := Select(naming, Declared, hs);
    SelectMembers(naming, Declared, hs);
    var ps := HeaderParams(naming, ctx, hs);
    if exists i :: 0 <= i < |ps| && ps[i].role == ResponseHeader(name) {
      var i :| 0 <= i < |ps| && ps[i].role == ResponseHeader(name);
      assert sel[i] in sel;
      assert (name, sel[i].1) in hs;
    }
    if (exists h :: (name, h) in hs) && !IsWildcard(naming, name) {
      var h :| (name, h) in hs;
      assert (name, h) in sel;
      var i :| 0 <= i < |sel| && sel[i] == (name, h);
      assert ps[i].role == ResponseHeader(name);
    }
  }

  /** Header parameters keep the declaration order of their headers. */
  lemma HeaderParametersInOrder(naming: Naming, ctx: TypeContext, hs: Headers, i: nat, j: nat)
    requires i < j < |HeaderParams(naming, ctx, hs)|
    ensures exists p, q :: (0 <= p < q < |hs|
      && HeaderParams(naming, ctx, hs)[i].role == ResponseHeader(hs[p].0)
      && HeaderParams(naming, ctx, hs)[j].role == ResponseHeader(hs[q].0))
  {
    SelectKeepsOrder(naming, Declared, hs, i, j);
  }

  /** A header is a link of the builder expression exactly when its name has no
      wildcard and it does not repeat; the link passes the header's parameter. */
  lemma ChainLinkIff(naming: Naming, hs: Headers, name: string)
    ensures (exists i :: 0 <= i < |ChainLinks(naming, hs)| && ChainLinks(naming, hs)[i] == SetHeader(name, Ref(naming.variableName(name))))
      <==> (exists h :: (name, h) in hs && !h.repeat) && !IsWildcard(naming, name)
  {
    var sel := Select(naming, Chained, hs);
    SelectMembers(naming, Chained, hs);
    var cs := ChainLinks(naming, hs);
    if exists i :: 0 <= i < |cs| && cs[i] == SetHeader(name, Ref(naming.variableName(name))) {
      var i :| 0 <= i < |cs| && cs[i] == SetHeader(name, Ref(naming.variableName(name)));
      assert sel[i] in sel;
      assert (name, sel[i].1) in hs && !sel[i].1.repeat;
    }
    if (exists h :: (name, h) in hs && !h.repeat) && !IsWildcard(naming, name) {
      var h :| (name, h) in hs && !h.repeat;
      assert (name, h) in sel;
      var i :| 0 <= i < |sel| && sel[i] == (name, h);
      assert cs[i] == SetHeader(name, Ref(naming.variableName(name)));
    }
  }

  /** A header gets a for-each loop exactly when its name has no wildcard and it
      repeats. */
  lemma RepeatLoopIff(naming: Naming, ctx: TypeContext, hs: Headers, name: string)
    ensures (exists i :: 0 <= i < |RepeatLoops(naming, ctx, hs)| && RepeatLoops(naming, ctx, hs)[i].headerName == name)
      <==> (exists h :: (name, h) in hs && h.repeat) && !IsWildcard(naming, name)
  {
    var sel := Select(naming, Looped, hs);
    SelectMembers(naming, Looped, hs);
    var ls := RepeatLoops(naming, ctx, hs);
    if exists i :: 0 <= i < |ls| && ls[i].headerName == name {
      var i :| 0 <= i < |ls| && ls[i].headerName == name;
      assert sel[i] in sel;
      assert (name, sel[i].1) in hs && sel[i].1.repeat;
    }
    if (exists h :: (name, h) in hs && h.repeat) && !IsWildcard(naming, name) {
      var h :| (name, h) in hs && h.repeat;
      assert (name, h) in sel;
      var i :| 0 <= i < |sel| && sel[i] == (name, h);
      assert ls[i].headerName == name;
    }
  }

  /** Every for-each loop iterates over a parameter of the builder method: the one of
      the same header. */
  lemma EveryLoopHasParameter(naming: Naming, ctx: TypeContext, hs: Headers, i: nat)
    requires i < |RepeatLoops(naming, ctx, hs)|
    ensures exists k :: (0 <= k < |HeaderParams(naming, ctx, hs)|
      && HeaderParams(naming, ctx, hs)[k].name == RepeatLoops(naming, ctx, hs)[i].argument
      && HeaderParams(naming, ctx, hs)[k].role == ResponseHeader(RepeatLoops(naming, ctx, hs)[i].headerName))
  {
    var e := Select(naming, Looped, hs)[i];
    SelectMembers(naming, Looped, hs);
    SelectMembers(naming, Declared, hs);
    assert e in Select(naming, Looped, hs);
    var sel := Select(naming, Declared, hs);
    assert e in sel;
    var k :| 0 <= k < |sel| && sel[k] == e;
    assert HeaderParams(naming, ctx, hs)[k] == HeaderParam(naming, ctx, e);
  }

  /** As written, a repeated header whose name holds the wildcard symbol gets a loop
      over `buildVariableName(headerName)`, but no parameter of that header exists. */
  lemma AsWrittenLoopDangles(naming: Naming, ctx: TypeContext, name: string, h: Header,
                             code: int, mime: Option<MimeType>, className: string)
    requires IsWildcard(naming, name) && h.repeat
    ensures var hs := [(name, h)];
      && RepeatLoopsAsWritten(naming, ctx, hs) == [RepeatLoop(name, naming.variableName(name), ctx.headerJavaType(h))]
      && forall p :: p in BuilderMethodFor(naming, ctx, className, code, Response("", [], hs), mime).params ==>
           p.role != ResponseHeader(name)
  {
    WildcardLoopAsWritten(naming, ctx, name, h);
    WildcardHasNoParameter(naming, ctx, name, h, code, mime, className);
  }

  lemma WildcardLoopAsWritten(naming: Naming, ctx: TypeContext, name: string, h: Header)
    requires IsWildcard(naming, name) && h.repeat
    ensures RepeatLoopsAsWritten(naming, ctx, [(name, h)]) ==
      [RepeatLoop(name, naming.variableName(name), ctx.headerJavaType(h))]
  {
    var hs := [(name, h)];
    assert hs[..0] == [];
    assert Select(naming, LoopedAsWritten, hs) == [(name, h)];
  }

  lemma WildcardHasNoParameter(naming: Naming, ctx: TypeContext, name: string, h: Header,
                               code: int, mime: Option<MimeType>, className: string)
    requires IsWildcard(naming, name)
    ensures forall p :: p in BuilderMethodFor(naming, ctx, className, code, Response("", [], [(name, h)]), mime).params ==>
      p.role != ResponseHeader(name)
  {
    var hs := [(name, h)];
    assert hs[..0] == [];
    assert Select(naming, Declared, hs) == [];
    assert HeaderParams(naming, ctx, hs) == [];
  }

  /** The statements of a builder come in a fixed order: the builder declaration, the
      free-form `headers(..)` call (when wildcard headers were described), the entity
      call (when there is a body variant), one loop per repeated header, and the
      return of the wrapped response. */
  lemma BuilderBodyOrder(naming: Naming, ctx: TypeContext, className: string, statusCode: int,
                         response: Response, mime: Option<MimeType>)
    ensures var b := BuilderMethodFor(naming, ctx, className, statusCode, response, mime);
      var hs := response.headers;
      var extra := (if |FreeFormDescription(naming, ctx, hs)| > 0 then 1 else 0) + (if mime.Some? then 1 else 0);
      && |b.body| == 2 + extra + |Select(naming, Looped, hs)|
      && b.body[0].DeclareBuilder? && b.body[0].chain[0] == Status(statusCode)
      && b.body[|b.body| - 1] == ReturnWrapper(className)
      && (|FreeFormDescription(naming, ctx, hs)| > 0 ==> b.body[1] == HeadersCall(naming.multipleResponseHeadersArgumentName))
      && (mime.Some? ==> b.body[extra] == EntityCall(naming.genericPayloadArgumentName))
      && (forall k :: 1 + extra <= k < |b.body| - 1 ==> b.body[k].RepeatLoop?)
      && (forall k :: 0 <= k < |b.body| && b.body[k].RepeatLoop? ==> k > extra)
  {
  }

  /** The parameters of a builder come in a fixed order: the header parameters, then
      the free-form map, then the entity. */
  lemma BuilderParamsOrder(naming: Naming, ctx: TypeContext, className: string, statusCode: int,
                           response: Response, mime: Option<MimeType>)
    ensures var b := BuilderMethodFor(naming, ctx, className, statusCode, response, mime);
      var n := |Select(naming, Declared, response.headers)|;
      var freeForm := |FreeFormDescription(naming, ctx, response.headers)| > 0;
      && |b.params| == n + (if freeForm then 1 else 0) + (if mime.Some? then 1 else 0)
      && (forall k :: 0 <= k < n ==> b.params[k].role.ResponseHeader?)
      && (freeForm ==> b.params[n] == FreeFormParam(naming))
      && (mime.Some? ==> b.params[|b.params| - 1] == EntityParam(naming, ctx, mime.value))
  {
  }

  /** The Content-Type link is present exactly for a body variant and carries its
      media type; it comes right after the status. */
  lemma ContentTypeLink(naming: Naming, statusCode: int, mime: Option<MimeType>, hs: Headers)
    ensures var c := Chain(naming, statusCode, mime, hs);
      && c[0] == Status(statusCode)
      && (mime.Some? ==> c[1] == SetHeader(ContentType, Literal(mime.value.mediaType)))
      && |c| == 1 + (if mime.Some? then 1 else 0) + |Select(naming, Chained, hs)|
  {
  }

  // ---------------------------------------------------------------------------
  // All builders of a response class.

  /** The builders one response entry yields: its status key read with
      `NumberUtils.toInt`, then one builder without a mime type when the response has
      no body, or one per body variant in map order. */
  function BuildersForResponse(naming: Naming, ctx: TypeContext, className: string,
                               entry: (string, Response)): (bs: seq<BuilderMethod>)
    ensures |bs| == BuilderCount(entry.1)
  {
    var statusCode := ToInt(entry.0);
    var response := entry.1;
    if !response.HasBody() then [BuilderMethodFor(naming, ctx, className, statusCode, response, None)]
    else seq(|response.body|, j requires 0 <= j < |response.body| =>
               BuilderMethodFor(naming, ctx, className, statusCode, response, Some(response.body[j])))
  }

  /** The builders of every response entry, entry after entry in map order. */
  function AllBuilders(naming: Naming, ctx: TypeContext, className: string,
                       responses: seq<(string, Response)>): seq<BuilderMethod>
  {
    ConcatEntries(entry => BuildersForResponse(naming, ctx, className, entry), responses)
  }

  /** The lists `f` yields for the entries, one after the other. */
  function ConcatEntries<T>(f: ((string, Response)) -> seq<T>, responses: seq<(string, Response)>): seq<T>
  {
    if responses == [] then []
    else ConcatEntries(f, responses[..|responses| - 1]) + f(responses[|responses| - 1])
  }

  /** `createResponseBuilderInResourceMethodReturnType(action, responseClass, entry)`. */
  method CreateResponseBuilders(naming: Naming, ctx: TypeContext, className: string,
                                entry: (string, Response))
    returns (builders: seq<BuilderMethod>)
    ensures builders == BuildersForResponse(naming, ctx, className, entry)
  {
    var statusCode := ToInt(entry.0);
    var response := entry.1;
    if !response.HasBody() {
      var b := CreateResponseBuilder(naming, ctx, className, statusCode, response, None);
      builders := [b];
    } else {
      builders := [];
      var j := 0;
      while j < |response.body|
        invariant 0 <= j <= |response.body|
        invariant |builders| == j
        invariant forall k :: 0 <= k < j ==>
          builders[k] == BuilderMethodFor(naming, ctx, className, statusCode, response, Some(response.body[k]))
      {
        var b := CreateResponseBuilder(naming, ctx, className, statusCode, response, Some(response.body[j]));
        builders := builders + [b];
        j := j + 1;
      }
    }
  }

  /** The number of builders a response entry yields. */
  function BuilderCount(response: Response): nat {
    if response.HasBody() then |response.body| else 1
  }

  /** The number of builders the entries before position `k` yield. */
  function Offset(responses: seq<(string, Response)>, k: nat): nat
    requires k <= |responses|
  {
    if k == 0 then 0 else Offset(responses, k - 1) + BuilderCount(responses[k - 1].1)
  }

  /** One builder per (response entry, body variant), in map order: the builders of
      entry `k` sit at `Offset(responses, k)` onwards, each with the entry's parsed
      status code and its body variant, or none when the response has no body. */
  lemma BuilderEnumeration(naming: Naming, ctx: TypeContext, className: string,
                           responses: seq<(string, Response)>, k: nat, j: nat)
    requires k < |responses| && j < BuilderCount(responses[k].1)
    ensures |AllBuilders(naming, ctx, className, responses)| == Offset(responses, |responses|)
    ensures Offset(responses, k) + j < Offset(responses, |responses|)
    ensures var b := AllBuilders(naming, ctx, className, responses)[Offset(responses, k) + j];
      && b.status == ToInt(responses[k].0)
      && b.mime == (if responses[k].1.HasBody() then Some(responses[k].1.body[j]) else None)
      && b == BuildersForResponse(naming, ctx, className, responses[k])[j]
  {
    AllBuildersCount(naming, ctx, className, responses);
    BuilderAt(naming, ctx, className, responses, k, j);
  }

  lemma {:induction false} BuilderAt(naming: Naming, ctx: TypeContext, className: string,
                                     responses: seq<(string, Response)>, k: nat, j: nat)
    requires k < |responses| && j < BuilderCount(responses[k].1)
    ensures Offset(responses, k) + j < |AllBuilders(naming, ctx, className, responses)|
    ensures AllBuilders(naming, ctx, className, responses)[Offset(responses, k) + j] ==
      BuildersForResponse(naming, ctx, className, responses[k])[j]
  {
    EntryAt(entry => BuildersForResponse(naming, ctx, className, entry), responses, k, j);
  }

  lemma AllBuildersCount(naming: Naming, ctx: TypeContext, className: string,
                         responses: seq<(string, Response)>)
    ensures |AllBuilders(naming, ctx, className, responses)| == Offset(responses, |responses|)
  {
    EntriesCount(entry => BuildersForResponse(naming, ctx, className, entry), responses);
  }

  /** When every entry yields `BuilderCount` elements, the entries before `k` yield
      `Offset(responses, k)` of them. */
  lemma {:induction false} EntriesCount<T>(f: ((string, Response)) -> seq<T>, responses: seq<(string, Response)>)
    requires forall entry :: |f(entry)| == BuilderCount(entry.1)
    ensures |ConcatEntries(f, responses)| == Offset(responses, |responses|)
  {
    if responses != [] {
      var pre := responses[..|responses| - 1];
      EntriesCount(f, pre);
      OffsetPrefix(responses, |pre|);
    }
  }

  /** The `j`-th element `f` yields for entry `k` sits at `Offset(responses, k) + j`. */
  lemma {:induction false} EntryAt<T>(f: ((string, Response)) -> seq<T>, responses: seq<(string, Response)>,
                                      k: nat, j: nat)
    requires forall entry :: |f(entry)| == BuilderCount(entry.1)
    requires k < |responses| && j < BuilderCount(responses[k].1)
    ensures Offset(responses, k) + j < |ConcatEntries(f, responses)|
    ensures ConcatEntries(f, responses)[Offset(responses, k) + j] == f(responses[k])[j]
  {
    var pre := responses[..|responses| - 1];
    var all, allPre := ConcatEntries(f, responses), ConcatEntries(f, pre);
    EntriesCount(f, pre);
    EntriesCount(f, responses);
    if k < |pre| {
      assert pre[k] == responses[k];
      EntryAt(f, pre, k, j);
      OffsetPrefix(responses, k);
    } else {
      OffsetPrefix(responses, |pre|);
    }
  }

  /** Offsets into a prefix agree with offsets into the whole list. */
  lemma {:induction false} OffsetPrefix(responses: seq<(string, Response)>, k: nat)
    requires k < |responses|
    ensures Offset(responses[..|responses| - 1], k) == Offset(responses, k)
  {
    if k > 0 {
      OffsetPrefix(responses, k - 1);
    }
  }

  /** Two entries whose status keys `Integer.parseInt` rejects both read as status 0,
      so when neither has a body they yield builders with the same name and status. */
  lemma NonNumericKeysCollide(naming: Naming, ctx: TypeContext, className: string,
                              k1: string, r1: Response, k2: string, r2: Response)
    requires ParseInt(k1).None? && ParseInt(k2).None?
    requires !r1.HasBody() && !r2.HasBody()
    ensures var b1 := BuildersForResponse(naming, ctx, className, (k1, r1))[0];
      var b2 := BuildersForResponse(naming, ctx, className, (k2, r2))[0];
      b1.status == 0 && b2.status == 0 && b1.name == b2.name
  {
  }

  /** Wildcard and `default` status keys are among those `Integer.parseInt` rejects. */
  lemma RejectedStatusKeys()
    ensures ParseInt("2XX").None? && ParseInt("default").None?
  {
  }
}

=== FILE: sequences.dfy ===
/** Small facts about sequences that the list and map proofs rely on, stated once. */
module Sequences {
  /** A non-empty sequence is its prefix followed by its last element. */
  lemma SplitLast<T>(s: seq<T>)
    requires s != []
    ensures s == s[..|s| - 1] + [s[|s| - 1]]
  {
  }

  /** Growing a prefix by one element keeps the shorter prefix and adds `s[j]`. */
  lemma PrefixStep<T>(s: seq<T>, j: nat)
    requires j < |s|
    ensures s[..j + 1] == s[..j] + [s[j]]
    ensures s[..j + 1][..j] == s[..j]
  {
  }

  /** The prefix of full length is the sequence itself. */
  lemma PrefixFull<T>(s: seq<T>)
    ensures s[..|s|] == s
  {
  }

  lemma AppendNil<T>(s: seq<T>)
    ensures s + [] == s
  {
  }

  lemma NilAppend<T>(s: seq<T>)
    ensures [] + s == s
  {
  }

  lemma AppendAssoc<T>(a: seq<T>, b: seq<T>, c: seq<T>)
    ensures (a + b) + c == a + (b + c)
  {
  }

  /** A prefix no longer than `a` of `a + b` lies within `a`. */
  lemma TakeOfAppend<T>(a: seq<T>, b: seq<T>, k: nat)
    requires k <= |a|
    ensures (a + b)[..k] == a[..k]
  {
  }

  /** `f` of every element, the results joined in order. */
  function FlatMap<A, B>(f: A -> seq<B>, xs: seq<A>): seq<B>
  {
    if xs == [] then [] else FlatMap(f, xs[..|xs| - 1]) + f(xs[|xs| - 1])
  }

  lemma FlatMapStep<A, B>(f: A -> seq<B>, xs: seq<A>, i: nat)
    requires i < |xs|
    ensures FlatMap(f, xs[..i + 1]) == FlatMap(f, xs[..i]) + f(xs[i])
  {
    PrefixStep(xs, i);
  }

  /** An element of the joined results comes from the result of some element, and
      every element's results are all there. */
  lemma {:induction false} FlatMapHas<A, B>(f: A -> seq<B>, xs: seq<A>, y: B)
    ensures y in FlatMap(f, xs) <==> exists k :: 0 <= k < |xs| && y in f(xs[k])
  {
    if xs != [] {
      var n := |xs|;
      var pre := xs[..n - 1];
      FlatMapHas(f, pre, y);
      assert FlatMap(f, xs) == FlatMap(f, pre) + f(xs[n - 1]);
      if y in FlatMap(f, pre) {
        var k :| 0 <= k < n - 1 && y in f(pre[k]);
        assert pre[k] == xs[k];
      }
      if exists k :: 0 <= k < n && y in f(xs[k]) {
        var k :| 0 <= k < n && y in f(xs[k]);
        if k < n - 1 {
          assert pre[k] == xs[k];
        }
      }
    }
  }

  /** Elements made one after another: `g` makes each from the elements made before it
      and the next input. */
  function Accumulate<A, B>(g: (seq<B>, A) -> B, xs: seq<A>): (ys: seq<B>)
    ensures |ys| == |xs|
  {
    if xs == [] then []
    else
      var pre := Accumulate(g, xs[..|xs| - 1]);
      pre + [g(pre, xs[|xs| - 1])]
  }

  lemma AccumulateStep<A, B>(g: (seq<B>, A) -> B, xs: seq<A>, i: nat)
    requires i < |xs|
    ensures Accumulate(g, xs[..i + 1]) == Accumulate(g, xs[..i]) + [g(Accumulate(g, xs[..i]), xs[i])]
  {
    PrefixStep(xs, i);
  }

  /** The elements made for the first `k` inputs do not depend on the later inputs. */
  lemma {:induction false} AccumulatePrefix<A, B>(g: (seq<B>, A) -> B, xs: seq<A>, k: nat)
    requires k <= |xs|
    ensures Accumulate(g, xs)[..k] == Accumulate(g, xs[..k])
  {
    if k == |xs| {
      PrefixFull(xs);
      PrefixFull(Accumulate(g, xs));
    } else {
      var n := |xs|;
      var pre := xs[..n - 1];
      AccumulatePrefix(g, pre, k);
      assert pre[..k] == xs[..k];
      TakeOfAppend(Accumulate(g, pre), [g(Accumulate(g, pre), xs[n - 1])], k);
    }
  }

  /** The k-th element is made from the k elements before it and the k-th input. */
  lemma AccumulateAt<A, B>(g: (seq<B>, A) -> B, xs: seq<A>, k: nat)
    requires k < |xs|
    ensures Accumulate(g, xs)[k] == g(Accumulate(g, xs)[..k], xs[k])
  {
    var ys := Accumulate(g, xs);
    AccumulatePrefix(g, xs, k + 1);
    AccumulatePrefix(g, xs, k);
    AccumulateStep(g, xs, k);
    assert ys[k] == ys[..k + 1][k];
    assert ys[..k] == ys[..k + 1][..k];
  }

  /** `f` of every element, in order. */
  function Map<A, B>(f: A -> B, xs: seq<A>): (ys: seq<B>)
    ensures |ys| == |xs|
    ensures forall k :: 0 <= k < |xs| ==> ys[k] == f(xs[k])
  {
    seq(|xs|, k requires 0 <= k < |xs| => f(xs[k]))
  }

  lemma MapStep<A, B>(f: A -> B, xs: seq<A>, i: nat)
    requires i < |xs|
    ensures Map(f, xs[..i + 1]) == Map(f, xs[..i]) + [f(xs[i])]
  {
  }
}

=== FILE: templates.dfy ===
/**
 * Template registry flattening and template-parameter selection of the service
 * generator (`Generator.flattenTemplates`, `Generator.getTemplateParameterClasses`).
 */
module Templates {
  import opened JavaText
  import opened LinkedMaps
  import opened Model
  import opened Sequences

  type Registry = seq<(string, Template)>

  /** The registry the maps of `ts` merge into when put one after the other. */
  function Flatten(ts: seq<Registry>): Registry
  {
    if ts == [] then [] else PutAll(Flatten(ts[..|ts| - 1]), ts[|ts| - 1])
  }

  /** Every key of every map of `ts`, map by map, in iteration order. */
  function AllKeys(ts: seq<Registry>): seq<string>
  {
    if ts == [] then [] else AllKeys(ts[..|ts| - 1]) + Keys(ts[|ts| - 1])
  }

  /** The template the last map of `ts` defining `name` holds for it. */
  function LastDefinition(ts: seq<Registry>, name: string): Option<Template>
  {
    if ts == [] then None
    else if name in Keys(ts[|ts| - 1]) then LastValue(ts[|ts| - 1], name)
    else LastDefinition(ts[..|ts| - 1], name)
  }

  /** `flattenTemplates`: a fresh LinkedHashMap into which every map of the list is
      `putAll` in list order. */
  method FlattenTemplates(ts: seq<Registry>) returns (flat: Registry)
    ensures flat == Flatten(ts)
  {
    flat := [];
    var i := 0;
    while i < |ts|
      invariant 0 <= i <= |ts|
      invariant flat == Flatten(ts[..i])
    {
      PrefixStep(ts, i);
      flat := PutEach(flat, ts[i]);
      i := i + 1;
    }
    PrefixFull(ts);
  }

  /** The flattened registry lists each name once, in the order in which names first
      appear across the maps. */
  lemma {:induction false} FlattenKeys(ts: seq<Registry>)
    ensures Keys(Flatten(ts)) == Dedup(AllKeys(ts))
    ensures Distinct(Keys(Flatten(ts)))
  {
    if ts != [] {
      var pre := ts[..|ts| - 1];
      FlattenKeys(pre);
      KeysPutAll(Flatten(pre), ts[|ts| - 1]);
      DedupAppendDedup(AllKeys(pre), Keys(ts[|ts| - 1]));
    }
  }

  /** A name is in the flattened registry exactly when some map of the list defines it. */
  lemma FlattenDefines(ts: seq<Registry>, name: string)
    ensures name in Keys(Flatten(ts)) <==> exists i :: 0 <= i < |ts| && name in Keys(ts[i])
  {
    FlattenKeys(ts);
    AllKeysMembers(ts, name);
  }

  lemma {:induction false} AllKeysMembers(ts: seq<Registry>, name: string)
    ensures name in AllKeys(ts) <==> exists i :: 0 <= i < |ts| && name in Keys(ts[i])
  {
    if ts != [] {
      var pre := ts[..|ts| - 1];
      AllKeysMembers(pre, name);
      if name in AllKeys(pre) {
        var i :| 0 <= i < |pre| && name in Keys(pre[i]);
        assert ts[i] == pre[i];
      }
      if exists i :: 0 <= i < |ts| && name in Keys(ts[i]) {
        var i :| 0 <= i < |ts| && name in Keys(ts[i]);
        if i < |pre| {
          assert pre[i] == ts[i];
        }
      }
    }
  }

  /** Last write wins: a name maps to the template of the last map that defines it. */
  lemma {:induction false} FlattenLastWins(ts: seq<Registry>, name: string)
    ensures Get(Flatten(ts), name) == LastDefinition(ts, name)
  {
    if ts != [] {
      var pre := ts[..|ts| - 1];
      FlattenLastWins(pre, name);
      GetPutAll(Flatten(pre), ts[|ts| - 1], name);
    }
  }

  // ---------------------------------------------------------------------------
  // Template-parameter selection.

  /** One template that contributes a parameter, with whether it is a trait. */
  datatype TemplateUse = TemplateUse(name: string, template: Template, isTrait: bool)

  /** The LinkedHashSet of trait names: the resource's, then the action's own. */
  function TraitNames(action: Action): set<string>
  {
    set n | n in action.resource.traits + action.traits
  }

  /** The resource type (when applied and registered) followed by every registered
      trait whose name is applied, in registry order. */
  function SelectedTemplates(resourceType: Option<string>, traitNames: set<string>,
                             resourceTypes: Registry, traits: Registry): seq<TemplateUse>
  {
    ResourceTypeUse(resourceType, resourceTypes) + TraitUses(Retain(traits, traitNames))
  }

  function ResourceTypeUse(resourceType: Option<string>, resourceTypes: Registry): seq<TemplateUse>
  {
    if resourceType.Some? && Get(resourceTypes, resourceType.value).Some? then
      [TemplateUse(resourceType.value, Get(resourceTypes, resourceType.value).value, false)]
    else []
  }

  function TraitUses(traits: Registry): (uses: seq<TemplateUse>)
    ensures |uses| == |traits|
    ensures forall i :: 0 <= i < |traits| ==> uses[i] == TemplateUse(traits[i].0, traits[i].1, true)
  {
    seq(|traits|, i requires 0 <= i < |traits| => TemplateUse(traits[i].0, traits[i].1, true))
  }

  /** The variable name each selected template is bound under. */
  function VariableNames(naming: Naming, uses: seq<TemplateUse>): (names: seq<string>)
    ensures |names| == |uses|
    ensures forall i :: 0 <= i < |uses| ==> names[i] == naming.variableName(uses[i].name)
  {
    seq(|uses|, i requires 0 <= i < |uses| => naming.variableName(uses[i].name))
  }

  /** `templateParameters.put(variableName(name), templateParameterClass(..))` for each
      selected template in turn. */
  function PutUses(naming: Naming, ctx: TypeContext, m: seq<(string, JType)>, uses: seq<TemplateUse>): seq<(string, JType)>
  {
    if uses == [] then m
    else
      var u := uses[|uses| - 1];
      Put(PutUses(naming, ctx, m, uses[..|uses| - 1]), naming.variableName(u.name),
          ctx.templateParameterClass(u.name, u.template, u.isTrait))
  }

  /** The template parameters of a resource method, as the LinkedHashMap
      `templateParameters` holds them: the resource type's entry, then one `put` per
      selected trait. Two templates whose variable names coincide share one entry, in
      the first one's position, holding the later one's class. */
  function TemplateParameters(naming: Naming, ctx: TypeContext, raml: Raml, action: Action): seq<(string, JType)>
  {
    var traits := Retain(Flatten(raml.traits), TraitNames(action));
    PutUses(naming, ctx, PutUses(naming, ctx, [], ResourceTypeUse(action.resource.resourceType, Flatten(raml.resourceTypes))),
            TraitUses(traits))
  }

  /** `getTemplateParameterClasses`. */
  method GetTemplateParameterClasses(naming: Naming, ctx: TypeContext, raml: Raml, action: Action)
    returns (templateParameters: seq<(string, JType)>)
    ensures templateParameters == TemplateParameters(naming, ctx, raml, action)
  {
    templateParameters := [];
    var resourceTypeName := action.resource.resourceType;
    var traitNames := TraitNames(action);
    var availableResourceTypes := FlattenTemplates(raml.resourceTypes);
    var availableTraits := FlattenTemplates(raml.traits);
    if resourceTypeName.Some? {
      var resourceType := Get(availableResourceTypes, resourceTypeName.value);
      if resourceType.Some? {
        PutUsesSnoc(naming, ctx, [], [], TemplateUse(resourceTypeName.value, resourceType.value, false));
        templateParameters := Put(templateParameters, naming.variableName(resourceTypeName.value),
                                  ctx.templateParameterClass(resourceTypeName.value, resourceType.value, false));
      }
    }
    ghost var start := templateParameters;
    var traits := Retain(availableTraits, traitNames);
    var i := 0;
    while i < |traits|
      invariant 0 <= i <= |traits|
      invariant templateParameters == PutUses(naming, ctx, start, TraitUses(traits[..i]))
    {
      TraitUsesSnoc(traits, i);
      PutUsesSnoc(naming, ctx, start, TraitUses(traits[..i]), TemplateUse(traits[i].0, traits[i].1, true));
      templateParameters := Put(templateParameters, naming.variableName(traits[i].0),
                                ctx.templateParameterClass(traits[i].0, traits[i].1, true));
      i := i + 1;
    }
    assert traits[..i] == traits;
  }

  lemma PutUsesSnoc(naming: Naming, ctx: TypeContext, m: seq<(string, JType)>, uses: seq<TemplateUse>, u: TemplateUse)
    ensures PutUses(naming, ctx, m, uses + [u]) ==
      Put(PutUses(naming, ctx, m, uses), naming.variableName(u.name),
          ctx.templateParameterClass(u.name, u.template, u.isTrait))
  {
    assert (uses + [u])[..|uses|] == uses;
  }

  lemma TraitUsesSnoc(traits: Registry, i: nat)
    requires i < |traits|
    ensures TraitUses(traits[..i + 1]) == TraitUses(traits[..i]) + [TemplateUse(traits[i].0, traits[i].1, true)]
  {
  }

  /** The resource type comes first: the selection starts with a non-trait entry
      exactly when the resource's type is registered, that entry is the registered
      template, and every other entry is a trait. */
  lemma ResourceTypeFirst(resourceType: Option<string>, traitNames: set<string>,
                          resourceTypes: Registry, traits: Registry)
    ensures var uses := SelectedTemplates(resourceType, traitNames, resourceTypes, traits);
      && ((|uses| > 0 && !uses[0].isTrait) <==>
          (resourceType.Some? && resourceType.value in Keys(resourceTypes)))
      && (forall i :: 0 < i < |uses| ==> uses[i].isTrait)
      && (resourceType.Some? && resourceType.value in Keys(resourceTypes) ==>
            uses[0] == TemplateUse(resourceType.value, Get(resourceTypes, resourceType.value).value, false))
  {
  }

  /** Trait parameters are exactly the registered traits that the resource or the
      action applies; names that are not registered contribute nothing. */
  lemma TraitsSelected(resourceType: Option<string>, traitNames: set<string>,
                       resourceTypes: Registry, traits: Registry, name: string)
    ensures var uses := SelectedTemplates(resourceType, traitNames, resourceTypes, traits);
      (exists i :: 0 <= i < |uses| && uses[i].isTrait && uses[i].name == name) <==>
        (name in traitNames && name in Keys(traits))
  {
    RetainSelects(traits, traitNames, name);
    TraitUseNamed(ResourceTypeUse(resourceType, resourceTypes), Retain(traits, traitNames), name);
  }

  lemma TraitUseNamed(rt: seq<TemplateUse>, kept: Registry, name: string)
    requires forall k :: 0 <= k < |rt| ==> !rt[k].isTrait
    ensures var uses := rt + TraitUses(kept);
      (exists i :: 0 <= i < |uses| && uses[i].isTrait && uses[i].name == name) <==> name in Keys(kept)
  {
    var uses := rt + TraitUses(kept);
    if exists i :: 0 <= i < |uses| && uses[i].isTrait && uses[i].name == name {
      var i :| 0 <= i < |uses| && uses[i].isTrait && uses[i].name == name;
      assert uses[i] == TraitUses(kept)[i - |rt|];
      assert Keys(kept)[i - |rt|] == name;
    }
    if name in Keys(kept) {
      var k :| 0 <= k < |kept| && Keys(kept)[k] == name;
      assert uses[|rt| + k] == TraitUses(kept)[k];
    }
  }

  /** Trait parameters follow the order of the trait registry, not the order in which
      the resource and the action apply the traits. */
  lemma TraitsInRegistryOrder(resourceType: Option<string>, traitNames: set<string>,
                              resourceTypes: Registry, traits: Registry)
    requires Distinct(Keys(traits))
    ensures var uses := SelectedTemplates(resourceType, traitNames, resourceTypes, traits);
      forall i, j :: 0 <= i < j < |uses| && uses[i].isTrait ==>
        Precedes(Keys(traits), uses[i].name, uses[j].name)
  {
    RetainKeepsOrder(traits, traitNames);
    TraitsFollow(ResourceTypeUse(resourceType, resourceTypes), Retain(traits, traitNames), Keys(traits));
  }

  lemma TraitsFollow(rt: seq<TemplateUse>, kept: Registry, ks: seq<string>)
    requires forall k :: 0 <= k < |rt| ==> !rt[k].isTrait
    requires forall a, b :: 0 <= a < b < |kept| ==> Precedes(ks, kept[a].0, kept[b].0)
    ensures var uses := rt + TraitUses(kept);
      forall i, j :: 0 <= i < j < |uses| && uses[i].isTrait ==> Precedes(ks, uses[i].name, uses[j].name)
  {
    var uses := rt + TraitUses(kept);
    forall i, j | 0 <= i < j < |uses| && uses[i].isTrait
      ensures Precedes(ks, uses[i].name, uses[j].name)
    {
      assert uses[i] == TraitUses(kept)[i - |rt|] && uses[j] == TraitUses(kept)[j - |rt|];
    }
  }

  /** Putting a series of templates adds their variable names after the existing keys,
      each once, in the order of first appearance. */
  lemma {:induction false} PutUsesKeys(naming: Naming, ctx: TypeContext, m: seq<(string, JType)>, uses: seq<TemplateUse>)
    requires Distinct(Keys(m))
    ensures Keys(PutUses(naming, ctx, m, uses)) == Dedup(Keys(m) + VariableNames(naming, uses))
  {
    if uses == [] {
      PutNoUsesKeys(naming, ctx, m);
    } else {
      var pre, u := uses[..|uses| - 1], uses[|uses| - 1];
      PutUsesKeys(naming, ctx, m, pre);
      SplitLast(uses);
      PutUsesKeysStep(naming, ctx, m, pre, u);
    }
  }

  lemma PutNoUsesKeys(naming: Naming, ctx: TypeContext, m: seq<(string, JType)>)
    requires Distinct(Keys(m))
    ensures Keys(PutUses(naming, ctx, m, [])) == Dedup(Keys(m) + VariableNames(naming, []))
  {
    assert Keys(m) + VariableNames(naming, []) == Keys(m);
    DedupOfDistinct(Keys(m));
  }

  lemma PutUsesKeysStep(naming: Naming, ctx: TypeContext, m: seq<(string, JType)>, pre: seq<TemplateUse>, u: TemplateUse)
    requires Keys(PutUses(naming, ctx, m, pre)) == Dedup(Keys(m) + VariableNames(naming, pre))
    ensures Keys(PutUses(naming, ctx, m, pre + [u])) == Dedup(Keys(m) + VariableNames(naming, pre + [u]))
  {
    PutUsesSnoc(naming, ctx, m, pre, u);
    VariableNamesSnoc(naming, pre, u);
    PutKeysDedup(PutUses(naming, ctx, m, pre), Keys(m), VariableNames(naming, pre),
                 naming.variableName(u.name), ctx.templateParameterClass(u.name, u.template, u.isTrait));
  }

  lemma VariableNamesSnoc(naming: Naming, uses: seq<TemplateUse>, u: TemplateUse)
    ensures VariableNames(naming, uses + [u]) == VariableNames(naming, uses) + [naming.variableName(u.name)]
  {
  }

  lemma VariableNamesAppend(naming: Naming, a: seq<TemplateUse>, b: seq<TemplateUse>)
    ensures VariableNames(naming, a + b) == VariableNames(naming, a) + VariableNames(naming, b)
  {
  }

  /** The template parameter names of a resource method are the variable names of the
      selected templates, each once, in the order of first selection. */
  lemma TemplateParameterNames(naming: Naming, ctx: TypeContext, raml: Raml, action: Action)
    ensures Keys(TemplateParameters(naming, ctx, raml, action)) ==
      Dedup(VariableNames(naming, SelectedTemplates(action.resource.resourceType, TraitNames(action),
                                                    Flatten(raml.resourceTypes), Flatten(raml.traits))))
  {
    var rt := ResourceTypeUse(action.resource.resourceType, Flatten(raml.resourceTypes));
    var tu := TraitUses(Retain(Flatten(raml.traits), TraitNames(action)));
    var empty: seq<(string, JType)> := [];
    PutUsesKeys(naming, ctx, empty, rt);
    PutUsesKeys(naming, ctx, PutUses(naming, ctx, empty, rt), tu);
    assert Keys(empty) + VariableNames(naming, rt) == VariableNames(naming, rt);
    DedupAppendDedup(VariableNames(naming, rt), VariableNames(naming, tu));
    VariableNamesAppend(naming, rt, tu);
  }

  /** The class of the last use bound under variable name `k`, if any. */
  function UseClass(naming: Naming, ctx: TypeContext, uses: seq<TemplateUse>, k: string): Option<JType>
  {
    if uses == [] then None
    else
      var u := uses[|uses| - 1];
      if naming.variableName(u.name) == k then Some(ctx.templateParameterClass(u.name, u.template, u.isTrait))
      else UseClass(naming, ctx, uses[..|uses| - 1], k)
  }

  /** After the puts of a series of uses, a name holds the class of the last use bound
      under it, or its old value when no use is. */
  lemma {:induction false} GetPutUses(naming: Naming, ctx: TypeContext, m: seq<(string, JType)>,
                                      uses: seq<TemplateUse>, k: string)
    ensures Get(PutUses(naming, ctx, m, uses), k) ==
      if UseClass(naming, ctx, uses, k).Some? then UseClass(naming, ctx, uses, k) else Get(m, k)
  {
    if uses != [] {
      GetPutUses(naming, ctx, m, uses[..|uses| - 1], k);
    }
  }

  lemma {:induction false} UseClassAppend(naming: Naming, ctx: TypeContext, a: seq<TemplateUse>,
                                          b: seq<TemplateUse>, k: string)
    ensures UseClass(naming, ctx, a + b, k) ==
      if UseClass(naming, ctx, b, k).Some? then UseClass(naming, ctx, b, k) else UseClass(naming, ctx, a, k)
  {
    if b == [] {
      AppendNil(a);
    } else {
      var pre := b[..|b| - 1];
      UseClassAppend(naming, ctx, a, pre, k);
      SplitLast(b);
      AppendAssoc(a, pre, [b[|b| - 1]]);
      assert (a + b)[..|a + b| - 1] == a + pre;
    }
  }

  /** The value side of the template parameter map: a variable name holds the class
      of the last selected template bound under it (the later `put` wins), and names
      no selected template is bound under are absent. */
  lemma TemplateParameterValues(naming: Naming, ctx: TypeContext, raml: Raml, action: Action, k: string)
    ensures Get(TemplateParameters(naming, ctx, raml, action), k) ==
      UseClass(naming, ctx, SelectedTemplates(action.resource.resourceType, TraitNames(action),
                                              Flatten(raml.resourceTypes), Flatten(raml.traits)), k)
  {
    var rt := ResourceTypeUse(action.resource.resourceType, Flatten(raml.resourceTypes));
    var tu := TraitUses(Retain(Flatten(raml.traits), TraitNames(action)));
    var empty: seq<(string, JType)> := [];
    GetPutUses(naming, ctx, PutUses(naming, ctx, empty, rt), tu, k);
    GetPutUses(naming, ctx, empty, rt, k);
    UseClassAppend(naming, ctx, rt, tu, k);
  }

  /** Application order does not matter: a resource applying trait `b` and an action
      applying trait `a`, with `a` registered before `b`, yields `a` before `b`. */
  lemma RegistryOrderExample(ta: Template, tb: Template)
    ensures var action := Action(GET, Resource("/r", "", None, ["b"]), ["a"], []);
      SelectedTemplates(None, TraitNames(action), [], [("a", ta), ("b", tb)]) ==
        [TemplateUse("a", ta, true), TemplateUse("b", tb, true)]
  {
    var action := Action(GET, Resource("/r", "", None, ["b"]), ["a"], []);
    assert (action.resource.traits + action.traits)[1] == "a";
    assert (action.resource.traits + action.traits)[0] == "b";
    var names := TraitNames(action);
    assert "a" in names && "b" in names;
    var registry := [("a", ta), ("b", tb)];
    assert registry[..1] == [("a", ta)];
    assert registry[..1][..0] == [];
    assert Retain(registry[..1][..0], names) == [];
    assert Retain(registry[..1], names) == [("a", ta)];
    assert Retain(registry, names) == [("a", ta), ("b", tb)];
  }
}
